=== FILE: README.md ===
# TempusMail blog: search, navigation and page logic in Dafny

This project models the deterministic core of the TempusMail blog, a Next.js
site that renders Notion pages. It covers the following parts, one Dafny
module per source file:

- **Search pipeline** (`SearchTypes`, `NotionIntegration`, `SearchApi`,
  `SearchEndpoint`, `SearchClient`):
  - the browser's memoised `searchNotion` and the request it posts;
  - the `POST /api/search-notion` handler;
  - `handleSearchRequest`, which chooses between the official Notion client
    and the cookie-session client and classifies failures;
  - the integration strategy. It removes duplicate pages from the Notion
    response, builds a minimal record map and picks each result's title and
    description from several property names.
- **Mobile navigation** (`MobileNavigation`):
  - the sidebar and search-overlay flags and the six callbacks that change
    them;
  - the overlay's and the sidebar's controls;
  - the body scroll lock held while the sidebar is open.
- **Notion page** (`PageDom`, `NotionPage`, `AnchorSync`):
  - which block is the page, and whether it is a blog post with a table of
    contents;
  - the effective header height;
  - what a click on a table-of-contents entry does;
  - the effect that gives headings the ids of their table-of-contents entries;
  - the block, code and property rendering overrides.
- **Page head** (`PageHead`): reading `ImageURLs` into a URL list, and the
  fallbacks for the title, description, social image, Twitter card and
  JSON-LD image.

`Js` collects the JavaScript semantics the code relies on:

- truthiness and the `||` and `??` fallbacks;
- `trim` with the ECMAScript white-space set;
- `split` and `join` on one character;
- `startsWith` and ASCII lower-casing;
- numbers that may be `NaN`, and `parseInt(s, 10)`.

Foreign calls enter as parameters:

- the Notion client's `search` and the cookie-session `search`;
- `fetch`'s response;
- `getPageTableOfContents` (returned entries or threw);
- `getPageProperty` (a value or threw);
- `getSocialImageUrl`;
- the environment variables, the clock, `window.scrollY`, element layout,
  and the header's offset heights.

The document is an abstract sequence of elements in document order. Each
element has a read-only part and an anchor part (`id`, `scroll-margin-top`).
The anchor effect writes only the anchor part. Its element lookups (data
attributes, heading text, parents) read only the read-only part, while
`getElementById` reads the anchor part's `id`.

The code behaves as follows in five places where a reader might expect
otherwise. The model keeps each behaviour:

- **Sidebar and search are not mutually exclusive.** `openSearch`,
  `toggleSearch` and `close` enforce exclusion, but `open` and `toggle` leave
  search as it was. `OpenKeepsSearch` gives the run that shows both at once.
  `StepExclusive` states exactly which steps preserve exclusion.
- **Duplicates are removed across all items, not only pages.** The `findIndex`
  runs over every item the client returned, so a page whose id first appears
  on a non-page item is dropped (`EarlierNonPageHidesPage`).
- **The anchor effect is not idempotent in general.**
  `NotIdempotentInGeneral` gives a two-element document where a second run
  changes the first run's result. Idempotence is proved for documents where
  the entries' ids are new and distinct and their targets differ
  (`PassIdempotentWhenFresh`).
- **An entry whose heading text repeats an earlier entry's takes that
  entry's element.** The text match picks the first heading title with the
  same text. The later entry's id therefore overwrites the earlier one's,
  and a click on the earlier entry finds no element (`SameTextLosesFirst`).
- **On the official-client path, the ancestor id does not restrict the
  search.** There, a truthy `ancestorId` only adds an "object is page"
  filter (`ToNotionQuery`). The cookie-session path passes the parameters
  unchanged to a search function outside this model.

## Model

| member | source | states |
|---|---|---|
| NotionIntegration.ToNotionQuery | lib/notion-integration.ts:16-25 | The upstream query carries the user's text and always asks for 100 results; it is restricted to pages exactly when an ancestor id is given |
| NotionIntegration.FindIndexFrom | lib/notion-integration.ts:33 | The index found holds the id and no earlier index does; -1 exactly when no item carries the id |
| NotionIntegration.UniquePagesFrom | lib/notion-integration.ts:31-34 | Every item kept is a page standing at the first index of its id among all items; every such page is kept; order is preserved and no id appears twice |
| NotionIntegration.Lookup | lib/notion-integration.ts:88-91 | A property is found exactly when some key equals the name, and the value found is stored under that name |
| NotionIntegration.FirstPresent | lib/notion-integration.ts:99-102 | Nothing is found exactly when none of the candidate names is present; otherwise the value found is the one under the earliest name in the list that is present |
| NotionIntegration.PropText | lib/notion-integration.ts:93-97 | A truthy first title run wins over the rich text; otherwise the first rich-text run if truthy; the text is never empty, and there is none exactly when neither run is truthy |
| NotionIntegration.RecordTitle | lib/notion-integration.ts:47-49 | The record-map title is never empty: the `Name` title when truthy, else the `title` title, else `Untitled` |
| NotionIntegration.HighlightTitle | lib/notion-integration.ts:84-119 | The displayed title is never empty. It is the first present title-named property's text unless that is missing or the literal `Untitled`; in those two cases it is the first property's text, or `Untitled` when that has none |
| NotionIntegration.Truncate | lib/notion-integration.ts:106-108 | A description of at most 100 characters is unchanged; a longer one keeps its first 100 characters followed by an ellipsis, 103 in all |
| NotionIntegration.Description | lib/notion-integration.ts:99-109 | The description is empty exactly when there are no properties or the first present description-named property has no truthy rich-text run; otherwise it is that run truncated, never over 103 characters |
| NotionIntegration.ParentId | lib/notion-integration.ts:71 | The parent id prefers the database id, then the page id; it is empty exactly when neither is truthy |
| NotionIntegration.Blocks | lib/notion-integration.ts:45-77 | The record map's keys are exactly the pages' ids, and every entry is an alive page block keyed by its own id under a block parent |
| NotionIntegration.ResultFor | lib/notion-integration.ts:82-131 | Exactly pages produce a result. It carries the page's id, is navigable with score 1, its text is the highlight title, and its path text is the description, or the fixed placeholder when the description is empty |
| NotionIntegration.Results | lib/notion-integration.ts:82-132 | Filtering out non-pages never adds results; over pages only, there is one result per page, in order |
| NotionIntegration.SearchWithIntegration | lib/notion-integration.ts:137-140 | An upstream failure is rethrown unchanged; an upstream answer yields exactly its normalised result set, so the unique-page and block properties below hold for what the caller receives |
| NotionIntegration.NormaliseResultsSpec | lib/notion-integration.ts:80-134 | `total` equals the number of results and of unique pages; results follow the unique pages in order, no id twice, all navigable with score 1 |
| NotionIntegration.NormaliseBlocksSpec | lib/notion-integration.ts:45-77 | The record map holds exactly one block per unique page, so as many entries as `total`, each the block built from that page |
| NotionIntegration.BlocksOfDistinct | lib/notion-integration.ts:51-76 | For pages with distinct ids, each page's entry is the block built from that very page |
| NotionIntegration.TitlePrecedencesDiffer | lib/notion-integration.ts:47-91 | With both `Name` and `title` present, the record map uses `Name` but the search result uses `title` |
| NotionIntegration.FirstPropertyFallback | lib/notion-integration.ts:112-119 | When the title-named properties give no text or the literal `Untitled`, the first property's text (title or rich text) becomes the title |
| NotionIntegration.NoNamedTitle | lib/notion-integration.ts:88-91 | A page with none of the four title names gives no named title text |
| NotionIntegration.EarlierNonPageHidesPage | lib/notion-integration.ts:31-34 | A page whose id first occurs on a non-page item is dropped even though it is the only page with that id |
| SearchApi.ChooseStrategy | lib/search-api.ts:9-11 | The official client is used exactly when an API key is set and no session token is |
| SearchApi.Classify | lib/search-api.ts:14-27 | 401 and 403 become an authentication error with the fixed message, and nothing else does; any other failure becomes a search error with the original message, or `Search failed` when that is empty; the message is never empty |
| SearchApi.HandleSearchRequest | lib/search-api.ts:5-28 | The chosen strategy's answer passes through unchanged, and its failure is classified; the integration strategy sees the converted query |
| SearchEndpoint.Handle | pages/api/search-notion.ts:6-36 | Non-POST gets 405 without searching; success is 200 with the results and the cache header; an authentication error is 500 with its message as `error`; a search error is 500 with `Search failed` and the message as `details` |
| SearchEndpoint.NonPostIgnoresSearch | pages/api/search-notion.ts:10-12 | For a non-POST request the response does not depend on the search at all |
| SearchEndpoint.CacheHeaderOnlyOnSuccess | pages/api/search-notion.ts:19-23 | The cache header is set exactly on status 200, and 200 happens exactly for a POST whose search succeeded |
| SearchEndpoint.DetailsNeverUnknown | pages/api/search-notion.ts:31-34 | Behind the real request handler the `Unknown error` fallback is dead: `details` is always the thrown search error's non-empty message |
| SearchClient.BuildRequest | lib/search-notion.ts:15-21 | The client posts the parameters as JSON with a JSON content type |
| SearchClient.ErrorMessage | lib/search-notion.ts:27-36 | An error's message is the body's `details`, else its `error`, else the status text; an unparseable body leaves the status text |
| SearchClient.SearchNotionImpl | lib/search-notion.ts:12-41 | A 2xx response resolves with its parsed body or rejects with the parse error; any other status rejects with an HTTP error that carries the response and the message `ErrorMessage` gives |
| SearchClient.SearchNotion | lib/search-notion.ts:7-10 | A live entry for the query is served without fetching and leaves the cache alone; otherwise the call fetches, stores a resolved value stamped with the current time, and does not store a rejection |
| SearchClient.SameQueryWithinWindowShared | lib/search-notion.ts:7-10 | Two calls with the same query, even with different ancestor ids, within ten seconds of a successful fetch: the second does not fetch and gets the first's value |
| SearchClient.EntryExpires | lib/search-notion.ts:9 | Ten seconds after an entry was stored, the same query fetches again |
| SearchClient.ClientRequestIsAccepted | lib/search-notion.ts:15-21 | The request the client builds is never refused with 405 by the endpoint |
| SearchClient.ClientSeesServerOutcome | lib/search-notion.ts:22-41 | End to end, the client resolves with the server's result set unchanged, or rejects with exactly the message of the error the search threw, for both error kinds |
| MobileNavigation.InitialClosed | components/MobileNavigation.tsx:43-44 | The sidebar and search both start closed, so neither is rendered and they are exclusive |
| MobileNavigation.Open | components/MobileNavigation.tsx:46 | Opening the sidebar leaves the search flag as it was |
| MobileNavigation.Close | components/MobileNavigation.tsx:47-50 | Closing the sidebar closes search too |
| MobileNavigation.Toggle | components/MobileNavigation.tsx:51 | Toggling flips the sidebar and leaves search as it was |
| MobileNavigation.OpenSearch | components/MobileNavigation.tsx:53-56 | Opening search closes the sidebar |
| MobileNavigation.CloseSearch | components/MobileNavigation.tsx:57 | Closing search leaves the sidebar as it was |
| MobileNavigation.ToggleSearch | components/MobileNavigation.tsx:58-65 | Toggling search flips it; opening it this way closes the sidebar, closing it this way leaves the sidebar alone |
| MobileNavigation.StepExclusive | components/MobileNavigation.tsx:46-65 | From an exclusive state, a step keeps sidebar and search exclusive exactly when it is not `open` or `toggle` issued while search is open |
| MobileNavigation.SearchSideEnforcesExclusion | components/MobileNavigation.tsx:47-65 | Every callback except `open` and `toggle` yields an exclusive state from any state |
| MobileNavigation.RunExclusive | components/MobileNavigation.tsx:43-65 | Any run from an exclusive state that never opens the sidebar over an open search ends exclusive |
| MobileNavigation.OpenKeepsSearch | components/MobileNavigation.tsx:46-56 | Opening search and then the sidebar leaves both open |
| MobileNavigation.OnOverlayEvent | components/MobileNavigation.tsx:82-109 | The overlay, and with it its listeners, exists exactly while search is open. While it is shown, Escape and a backdrop click close search; every other event, and any event while it is hidden, changes nothing |
| MobileNavigation.OnSidebarEvent | components/MobileNavigation.tsx:146-216 | A hidden sidebar reacts to nothing; the theme is toggled exactly by the theme button; the enabled search button toggles search; a click inside the panel and a search button with search disabled change nothing; every other control closes the sidebar |
| MobileNavigation.SearchButtonFromBothOpen | components/MobileNavigation.tsx:146-148 | The sidebar's search button switches from sidebar to search, but with both open it only closes search |
| MobileNavigation.OverflowTracksSidebar | components/MobileNavigation.tsx:158-167 | While mounted, the body is locked exactly when the sidebar is open now, whatever came before; after unmounting it is always released |
| PageDom.GetElementById | components/NotionPage.tsx:416 | The element found is the first to carry the id; none is found exactly when the id is empty or no element carries it |
| PageDom.QueryDataId | components/NotionPage.tsx:420 | The first element whose `data-id` is the id; none exactly when no element has it |
| PageDom.QueryDataBlockId | components/NotionPage.tsx:422 | The first element whose `data-block-id` is the id; none exactly when no element has it |
| PageDom.FindHeadingTitle | components/NotionPage.tsx:426-431 | The first heading title whose trimmed text equals the entry's trimmed text; none exactly when there is none |
| PageDom.Closest | components/NotionPage.tsx:433 | The nearest heading container on the element's chain of itself and its ancestors: no container lies between it and the element, and there is none exactly when the chain holds no container |
| PageDom.ParentOf | components/NotionPage.tsx:433 | The parent precedes the element and is its recorded parent; in a well-formed document it is exactly the recorded parent |
| NotionPage.FirstKey | components/NotionPage.tsx:368 | There is a first key exactly when the record map exists and has a block |
| NotionPage.PageBlockOf | components/NotionPage.tsx:368-369 | The page block is the value of the record map's first entry, and absent when there is no entry |
| NotionPage.TableOfContents | components/NotionPage.tsx:379-390 | The builder's entries when block and record map exist and it returns; empty when either is missing or it throws |
| NotionPage.TocShownIff | components/NotionPage.tsx:373-392 | The table of contents is shown exactly when the first block is a page in a collection and the builder returned at least three entries |
| NotionPage.HeaderHeight | components/NotionPage.tsx:316-326 | The result is NaN exactly when the variable is set but not numeric; otherwise it is the largest of the variable's number (0 when blank) and the two header heights (0 when absent) |
| NotionPage.HeaderHeightOfPixels | components/NotionPage.tsx:318-319 | A variable written `<n>px` counts as n pixels, so the height is n or the taller header, whichever is larger |
| NotionPage.ResolveTarget | components/NotionPage.tsx:331-333 | The element carrying the id wins; otherwise the first element with that `data-id` |
| NotionPage.OnTocItemClick | components/NotionPage.tsx:328-342 | Without a target nothing happens; otherwise the page scrolls so the target sits 8 pixels below the header, and the hash becomes the id. With a NaN header the scroll argument is NaN, which the browser reads as 0 |
| NotionPage.ClickTargetIndependentOfScroll | components/NotionPage.tsx:338 | The scroll destination depends only on the target's position in the document, not on how far the window was scrolled |
| NotionPage.CustomBlock | components/NotionPage.tsx:243-260 | A block is hidden exactly on the index page (`/` or empty path) when it is the record map's first block, or both its id and the first key are missing, or it is a callout or divider; everything else renders its children |
| NotionPage.CustomBlockHidesOnlyBanner | components/NotionPage.tsx:247-256 | On the index page an ordinary block is hidden exactly when it is the record map's first block |
| NotionPage.CustomCode | components/NotionPage.tsx:262-270 | The diagram renderer is used exactly for the languages `Mermaid` and `mermaid` |
| NotionPage.CustomCodeCaseSensitive | components/NotionPage.tsx:265 | Any other spelling, such as `MERMAID`, goes to the ordinary code renderer |
| NotionPage.PropertyTextValue | components/NotionPage.tsx:185-199 | An `ImageURLs` property in any letter case is hidden; an `Author` property in any case is bold exactly in the page header; all else renders by default |
| AnchorSync.Target | components/NotionPage.tsx:418-435 | The `data-id` match wins, then the `data-block-id` match; without either, the first heading title with the same trimmed text is taken to its closest heading container, else to its parent, and there is no target when no title matches |
| AnchorSync.Mark | components/NotionPage.tsx:438-441 | The element takes the entry's id; a finite header height sets the margin to that height plus 12, and a NaN height leaves the old margin, since `NaNpx` is not a valid length |
| AnchorSync.TextMatchReachesHeading | components/NotionPage.tsx:425-434 | A text match inside a heading container binds the nearest container around the title, never one further out |
| AnchorSync.StepItem | components/NotionPage.tsx:412-446 | An entry with an empty or already carried id, or no target, changes nothing; otherwise only the target changes: it gets the entry's id and a margin of the header height plus 12 (its old margin when the height is NaN), and the id then resolves to it |
| AnchorSync.AssignIds | components/NotionPage.tsx:411-448 | The pass changes only ids and scroll margins, never what the lookups read; on any document, an element no entry stands for keeps its anchor |
| AnchorSync.AnchorPass | components/NotionPage.tsx:408-453 | Without a table of contents the document is untouched; with one, the ids are assigned over the whole table in order; in every case only anchors change |
| AnchorSync.SettledFixpoint | components/NotionPage.tsx:412-416 | A document where every entry is skipped is left exactly as it is |
| AnchorSync.AssignIdsFresh | components/NotionPage.tsx:437-446 | On a fresh document each entry's target gets that entry's id and margin over its original anchor, and every element no entry stands for is unchanged |
| AnchorSync.IdResolvesToTarget | components/NotionPage.tsx:437-446 | After a pass over a fresh document, looking up an entry's id finds exactly that entry's target |
| AnchorSync.PassSettles | components/NotionPage.tsx:411-448 | After a pass over a fresh document every entry is skipped next time |
| AnchorSync.PassIdempotentWhenFresh | components/NotionPage.tsx:408-453 | Re-running the effect after a pass over a fresh document changes nothing |
| AnchorSync.ClickAfterPassReachesTarget | components/NotionPage.tsx:331-340 | After a pass over a fresh document (new distinct ids, distinct targets), a click on an entry scrolls to the element that entry stands for, with its id as the hash |
| AnchorSync.SameTextLosesFirst | components/NotionPage.tsx:425-446 | Two entries with the same heading text stand for one element; after the pass only the second entry's id is there, and a click on the first finds nothing |
| AnchorSync.NotIdempotentInGeneral | components/NotionPage.tsx:416 | An element already carrying one entry's id makes the pass skip that entry, and a second run then changes the document |
| PageHead.CleanUrlsMembers | components/PageHead.tsx:20-23 | A string is among the cleaned URLs exactly when it starts with `http` and some part trims to it |
| PageHead.CleanUrlsShape | components/PageHead.tsx:20-23 | There are no more URLs than parts, and each is a trimmed `http` string |
| PageHead.CleanUrlsAppend | components/PageHead.tsx:22-23 | Cleaning works part by part: cleaning two lists joined is the two cleanings joined |
| PageHead.GetImageUrls | components/PageHead.tsx:9-30 | A throwing, missing or empty property gives no URLs; otherwise the comma-separated parts cleaned; every URL is trimmed, starts with `http` and has no comma |
| PageHead.ReadsJoinedUrls | components/PageHead.tsx:20-25 | Comma-joined parts, each an http URL with any white space around it, read back as exactly those URLs in order |
| PageHead.ReadsCommaSpaceList | components/PageHead.tsx:20-25 | A property typed as `url1, url2, …` reads back as exactly the URLs |
| PageHead.ResolveTitle | components/PageHead.tsx:52 | A given title is kept even when empty; only a missing one falls back to the site name |
| PageHead.ResolveDescription | components/PageHead.tsx:53 | A given description is kept; only a missing one falls back to the site description |
| PageHead.SocialImageUrl | components/PageHead.tsx:55 | The generated social image wins when it is non-empty, else the given image |
| PageHead.SchemaImages | components/PageHead.tsx:61 | Listed URLs win; else the social image alone; absent exactly when neither exists; never an empty list |
| PageHead.TwitterCardFor | components/PageHead.tsx:110-118 | The large-image card exactly when there is a social image |
| PageHead.BuildHead | components/PageHead.tsx:52-169 | The head's choices: the description tags exactly for a non-empty description, the image tags exactly for a social image, and the JSON-LD exactly for a blog post, carrying the chosen title, description and images |
| PageHead.JsonLdImageIff | components/PageHead.tsx:58-152 | The JSON-LD has an image exactly for a blog post that lists http URLs or has a social image, and the listed URLs win |
| PageHead.EmptyTitleKept | components/PageHead.tsx:52 | `??` keeps an empty title where `||` would have used the site name |
| Js.Trim | components/PageHead.tsx:22 | The result is the part of the string left after removing all white space at both ends: a contiguous piece with only white space before and after it, not starting or ending with white space |
| Js.TrimmedAtUnique | components/PageHead.tsx:22 | Only one such piece exists, so the trimmed string is determined by the input |
| Js.TrimPadded | components/PageHead.tsx:22 | White space around a trimmed, non-empty string is removed exactly |
| Js.JoinSplit | components/PageHead.tsx:21 | Joining the parts of a split with the separator gives back the original text |
| Js.SplitJoin | components/PageHead.tsx:21 | Splitting separator-free parts joined with the separator gives back the parts |
| Js.ParseIntShow | components/NotionPage.tsx:319 | `parseInt` reads a decimal number followed by a non-digit unit as that number |
| Js.ParseInt | components/NotionPage.tsx:319 | `parseInt(…, 10)` gives a number exactly when a digit follows leading white space and at most one sign; a negative number needs a minus sign just before its first digit |
| Js.Max3 | components/NotionPage.tsx:325 | The maximum is NaN exactly when an argument is NaN, and otherwise it is one of the arguments and at least each |

## Left out

- The cookie-session `search` (lib/notion.ts) receives the parameters, `ancestorId` included, unchanged. What it does with `ancestorId` is not modelled, because that function is a parameter here.
- A `fetch` that rejects without any response (a network failure) is not represented. `FetchResponse` always has a status, and such a rejection would reach the caller unchanged.
- Network, environment and foreign libraries are parameters and are not modelled: `fetch`, the Notion client, the cookie-session `search`, `getPageTableOfContents`, `getPageProperty` and `getSocialImageUrl`. `getBlockTitle`, `formatDate`, `mapPageUrl` and `mapImageUrl` feed only presentation and are left out.
- The official client is authenticated with `NOTION_TOKEN`, while `NOTION_API_KEY` chooses the strategy. Authentication is outside the model.
- `created_time` and `last_edited_time` go through `Date` parsing and are left out. So are the empty `collection`, `collection_view` and `notion_user` tables of the record map.
- Lengths and slices count characters, not UTF-16 code units. A description whose 100th unit splits a surrogate pair is not modelled.
- `Object.keys` and `Object.values` order is modelled as insertion order. The precedence JavaScript gives integer-like keys is left out.
- `querySelector` is modelled as if every id were a valid selector. An id with a quote would throw, and that case is left out. The `try`/`catch` around setting the id guards against nothing the model can produce.
- Layout values (`getBoundingClientRect().top`, `offsetHeight`, `scrollY`) are whole pixels. Fractional values are not modelled.
- `getHeaderHeight` is read once per pass rather than once per entry. Layout does not change inside one synchronous pass.
- `parseInt` gives exact integers. Precision loss past 2^53 is not modelled, nor is the `-0` result.
- A parent link that does not point backwards in document order is not followed. Well-formed documents meet this, and `ParentOf` states it.
- The `setTimeout` deferral and its cleanup, the `config.isServer` guard, hydration, dark mode, the TOC collapse state, Utterances comments, CSS and the rest of the page's JSX are left out.
- The in-flight promise sharing of the memoiser is not modelled, only its cache. A rejected call is taken as not cached.
- Console logging is left out.
- The page's inline CSS block and the Utterances comment injection are DOM side effects with no statable logic.
- components/NotionPageHeader.tsx, components/Comments.tsx, components/Mermaid.tsx, components/Footer.tsx, components/PageAside.tsx, lib/gtag.ts and lib/notion-api.ts are not part of this model. They hold listeners, script injection, presentation and thin wrappers over foreign APIs.

=== FILE: anchor_sync.dfy ===
/**
 The effect that gives headings the ids of their table-of-contents entries:
 for each entry in order, unless its id is empty or some element already
 carries it, find the element the entry stands for and set that element's
 `id` and `scroll-margin-top`.
 */
module AnchorSync {
  import opened Js
  import opened PageDom
  import NotionPage

  /** Pixels added to the header height for the scroll margin. */
  const ScrollMarginExtra := 12

  /** The anchor the pass writes over `prev`: the entry's id, and a scroll
      margin of the header height plus twelve pixels. A `NaN` height makes
      the margin `"NaNpx"`, which the style ignores, so the previous margin
      stays. */
  function Mark(id: string, headerHeight: Num, prev: Anchor): (a: Anchor)
    ensures a.id == Some(id)
    ensures headerHeight.Finite? ==> a.scrollMarginTop == Some(headerHeight.v + ScrollMarginExtra)
    ensures headerHeight.NaN? ==> a.scrollMarginTop == prev.scrollMarginTop
  {
    match headerHeight
    case Finite(h) => Anchor(Some(id), Some(h + ScrollMarginExtra))
    case NaN => prev.(id := Some(id))
  }

  /** The element an entry stands for, looked up on the read-only part of
      the document: `[data-id]`, then `[data-block-id]`, then the first
      heading title with the same trimmed text, taken to its enclosing
      heading container or, failing that, its parent. */
  function Target(nodes: seq<Node>, item: NotionPage.TocItem): (r: Option<nat>)
    ensures r.Some? ==> r.value < |nodes|
    ensures QueryDataId(nodes, item.id).Some? ==> r == QueryDataId(nodes, item.id)
    ensures QueryDataId(nodes, item.id).None? && QueryDataBlockId(nodes, item.id).Some? ==>
      r == QueryDataBlockId(nodes, item.id)
    ensures r.Some? && nodes[r.value].dataId != Some(item.id) && nodes[r.value].dataBlockId != Some(item.id) ==>
      && FindHeadingTitle(nodes, item.text).Some?
      && r.value <= FindHeadingTitle(nodes, item.text).value
      && (nodes[r.value].isHeadingContainer || nodes[FindHeadingTitle(nodes, item.text).value].parent == r)
    ensures r.None? ==> forall j :: 0 <= j < |nodes| ==>
      nodes[j].dataId != Some(item.id) && nodes[j].dataBlockId != Some(item.id)
    ensures QueryDataId(nodes, item.id).None? && QueryDataBlockId(nodes, item.id).None? ==>
      match FindHeadingTitle(nodes, item.text)
      case None => r.None?
      case Some(m) => r == (if Closest(nodes, m).Some? then Closest(nodes, m) else ParentOf(nodes, m))
  {
    match QueryDataId(nodes, item.id)
    case Some(i) => Some(i)
    case None =>
      match QueryDataBlockId(nodes, item.id)
      case Some(i) => Some(i)
      case None =>
        match FindHeadingTitle(nodes, item.text)
        case None => None
        case Some(m) =>
          match Closest(nodes, m)
          case Some(c) => Some(c)
          case None => ParentOf(nodes, m)
  }

  /** Without a data-attribute match, an entry whose heading title lies
      inside a heading container is bound to the nearest such container
      around the title, never to one further out. */
  lemma TextMatchReachesHeading(nodes: seq<Node>, item: NotionPage.TocItem, m: nat, c: nat)
    requires QueryDataId(nodes, item.id).None? && QueryDataBlockId(nodes, item.id).None?
    requires FindHeadingTitle(nodes, item.text) == Some(m)
    requires c <= m && AncestorOrSelf(nodes, m, c) && nodes[c].isHeadingContainer
    ensures Target(nodes, item).Some?
    ensures var t := Target(nodes, item).value;
      c <= t <= m && nodes[t].isHeadingContainer && AncestorOrSelf(nodes, m, t)
  {
  }

  /** One iteration of `assignIds` for one entry. */
  function StepItem(dom: Dom, item: NotionPage.TocItem, headerHeight: Num): (r: Dom)
    ensures |r| == |dom| && Nodes(r) == Nodes(dom)
    ensures item.id == "" || GetElementById(dom, item.id).Some? || Target(Nodes(dom), item).None? ==> r == dom
    ensures item.id != "" && GetElementById(dom, item.id).None? && Target(Nodes(dom), item).Some? ==>
      var t := Target(Nodes(dom), item).value;
      && r[t] == Element(dom[t].node, Mark(item.id, headerHeight, dom[t].anchor))
      && (forall j :: 0 <= j < |dom| && j != t ==> r[j] == dom[j])
      && GetElementById(r, item.id) == Some(t)
  {
    if item.id == "" || GetElementById(dom, item.id).Some? then dom
    else
      match Target(Nodes(dom), item)
      case None => dom
      case Some(t) =>
        var r := dom[t := Element(dom[t].node, Mark(item.id, headerHeight, dom[t].anchor))];
        assert Nodes(r) == Nodes(dom) by {
          assert forall j :: 0 <= j < |dom| ==> Nodes(r)[j] == Nodes(dom)[j];
        }
        r
  }

  /** `assignIds`: the entries in order, each seeing the ids the earlier
      ones wrote. An element no entry stands for keeps its anchor, whatever
      ids the document already carries. */
  function AssignIds(dom: Dom, items: seq<NotionPage.TocItem>, headerHeight: Num): (r: Dom)
    ensures |r| == |dom| && Nodes(r) == Nodes(dom)
    ensures forall j :: 0 <= j < |dom| && Untargeted(Nodes(dom), items, j) ==> r[j] == dom[j]
    decreases |items|
  {
    if items == [] then dom
    else
      UntargetedTail(Nodes(dom), items);
      AssignIds(StepItem(dom, items[0], headerHeight), items[1..], headerHeight)
  }

  /** An element no entry stands for is not the first entry's target, and
      no later entry stands for it either. */
  lemma UntargetedTail(nodes: seq<Node>, items: seq<NotionPage.TocItem>)
    requires items != []
    ensures forall j: nat :: Untargeted(nodes, items, j) ==>
      Target(nodes, items[0]) != Some(j) && Untargeted(nodes, items[1..], j)
  {
    forall j: nat | Untargeted(nodes, items, j)
      ensures Target(nodes, items[0]) != Some(j) && Untargeted(nodes, items[1..], j)
    {
      forall l | 0 <= l < |items[1..]| ensures Target(nodes, items[1..][l]) != Some(j) {
        assert items[1..][l] == items[l + 1];
      }
    }
  }

  /** The effect runs only when the table of contents is shown. */
  function AnchorPass(dom: Dom, toc: seq<NotionPage.TocItem>, hasToc: bool, headerHeight: Num): (r: Dom)
    ensures !hasToc ==> r == dom
    ensures hasToc ==> r == AssignIds(dom, toc, headerHeight)
    ensures |r| == |dom| && Nodes(r) == Nodes(dom)
  {
    if hasToc then AssignIds(dom, toc, headerHeight) else dom
  }

  // ---------------------------------------------------------------------------
  // Settled documents are left alone
  // ---------------------------------------------------------------------------

  /** Every entry is one the pass skips: its id is empty, already carried, or
      stands for no element. */
  predicate Settled(dom: Dom, items: seq<NotionPage.TocItem>) {
    forall k :: 0 <= k < |items| ==>
      items[k].id == "" || GetElementById(dom, items[k].id).Some? || Target(Nodes(dom), items[k]).None?
  }

  lemma {:induction false} SettledFixpoint(dom: Dom, items: seq<NotionPage.TocItem>, headerHeight: Num)
    requires Settled(dom, items)
    ensures AssignIds(dom, items, headerHeight) == dom
    decreases |items|
  {
    if items != [] {
      assert StepItem(dom, items[0], headerHeight) == dom;
      assert Settled(dom, items[1..]) by {
        forall k | 0 <= k < |items[1..]|
          ensures items[1..][k].id == "" || GetElementById(dom, items[1..][k].id).Some? || Target(Nodes(dom), items[1..][k]).None?
        {
          assert items[1..][k] == items[k + 1];
        }
      }
      SettledFixpoint(dom, items[1..], headerHeight);
    }
  }

  // ---------------------------------------------------------------------------
  // A pass over a fresh document
  // ---------------------------------------------------------------------------

  /** No entry's target is `j`. */
  predicate Untargeted(nodes: seq<Node>, items: seq<NotionPage.TocItem>, j: nat) {
    forall k :: 0 <= k < |items| ==> Target(nodes, items[k]) != Some(j)
  }

  /** The entries have distinct non-empty ids that no element carries yet,
      and distinct entries stand for distinct elements. */
  predicate Fresh(dom: Dom, items: seq<NotionPage.TocItem>) {
    && (forall k :: 0 <= k < |items| ==> items[k].id != "")
    && (forall k, l :: 0 <= k < l < |items| ==> items[k].id != items[l].id)
    && (forall k, j :: 0 <= k < |items| && 0 <= j < |dom| ==> dom[j].anchor.id != Some(items[k].id))
    && (forall k, l :: 0 <= k < l < |items| && Target(Nodes(dom), items[k]).Some? ==>
          Target(Nodes(dom), items[k]) != Target(Nodes(dom), items[l]))
  }

  /** After the first entry of a fresh list is bound, the rest is fresh. */
  lemma FreshTail(dom: Dom, items: seq<NotionPage.TocItem>, headerHeight: Num)
    requires items != [] && Fresh(dom, items)
    ensures Fresh(StepItem(dom, items[0], headerHeight), items[1..])
  {
    var d1 := StepItem(dom, items[0], headerHeight);
    var rest := items[1..];
    assert GetElementById(dom, items[0].id).None?;
    forall k, j | 0 <= k < |rest| && 0 <= j < |d1| ensures d1[j].anchor.id != Some(rest[k].id) {
      assert rest[k] == items[k + 1];
    }
    forall k, l | 0 <= k < l < |rest| ensures rest[k].id != rest[l].id {
      assert rest[k] == items[k + 1] && rest[l] == items[l + 1];
    }
    forall k, l | 0 <= k < l < |rest| && Target(Nodes(d1), rest[k]).Some?
      ensures Target(Nodes(d1), rest[k]) != Target(Nodes(d1), rest[l])
    {
      assert rest[k] == items[k + 1] && rest[l] == items[l + 1];
    }
  }

  /** On a fresh document the pass gives every entry's target exactly that
      entry's anchor and leaves every element no entry stands for as it was. */
  lemma {:induction false} AssignIdsFresh(dom: Dom, items: seq<NotionPage.TocItem>, headerHeight: Num)
    requires Fresh(dom, items)
    ensures forall k :: 0 <= k < |items| && Target(Nodes(dom), items[k]).Some? ==>
      var t := Target(Nodes(dom), items[k]).value;
      AssignIds(dom, items, headerHeight)[t].anchor == Mark(items[k].id, headerHeight, dom[t].anchor)
    ensures forall j :: 0 <= j < |dom| && Untargeted(Nodes(dom), items, j) ==>
      AssignIds(dom, items, headerHeight)[j] == dom[j]
    decreases |items|
  {
    if items != [] {
      var nodes := Nodes(dom);
      var d1 := StepItem(dom, items[0], headerHeight);
      var rest := items[1..];
      assert GetElementById(dom, items[0].id).None?;
      FreshTail(dom, items, headerHeight);
      AssignIdsFresh(d1, rest, headerHeight);
      var r := AssignIds(dom, items, headerHeight);
      assert r == AssignIds(d1, rest, headerHeight);
      forall k | 0 <= k < |items| && Target(nodes, items[k]).Some?
        ensures r[Target(nodes, items[k]).value].anchor == Mark(items[k].id, headerHeight, dom[Target(nodes, items[k]).value].anchor)
      {
        if k == 0 {
          var t := Target(nodes, items[0]).value;
          assert Untargeted(nodes, rest, t) by {
            forall l | 0 <= l < |rest| ensures Target(nodes, rest[l]) != Some(t) {
              assert rest[l] == items[l + 1];
            }
          }
        } else {
          assert items[k] == rest[k - 1];
          var t := Target(nodes, items[k]).value;
          assert Target(nodes, items[0]) != Some(t);
          assert d1[t] == dom[t];
        }
      }
      forall j | 0 <= j < |dom| && Untargeted(nodes, items, j) ensures r[j] == dom[j] {
        assert Untargeted(nodes, rest, j) by {
          forall l | 0 <= l < |rest| ensures Target(nodes, rest[l]) != Some(j) {
            assert rest[l] == items[l + 1];
          }
        }
        assert Target(nodes, items[0]) != Some(j);
      }
    }
  }

  /** An id carried by exactly one element resolves to that element. */
  lemma SoleCarrier(dom: Dom, id: string, t: nat)
    requires id != "" && t < |dom| && dom[t].anchor.id == Some(id)
    requires forall j :: 0 <= j < |dom| && j != t ==> dom[j].anchor.id != Some(id)
    ensures GetElementById(dom, id) == Some(t)
  {
  }

  /** After a pass over a fresh document, `getElementById` on an entry's id
      finds exactly that entry's target. */
  lemma IdResolvesToTarget(dom: Dom, items: seq<NotionPage.TocItem>, headerHeight: Num, k: nat)
    requires Fresh(dom, items) && k < |items| && Target(Nodes(dom), items[k]).Some?
    ensures GetElementById(AssignIds(dom, items, headerHeight), items[k].id) == Target(Nodes(dom), items[k])
  {
    var nodes := Nodes(dom);
    var r := AssignIds(dom, items, headerHeight);
    var id := items[k].id;
    var t := Target(nodes, items[k]).value;
    AssignIdsFresh(dom, items, headerHeight);
    forall j | 0 <= j < |r| && j != t ensures r[j].anchor.id != Some(id) {
      if Untargeted(nodes, items, j) {
        assert r[j] == dom[j];
        assert dom[j].anchor.id != Some(items[k].id);
      } else {
        var l :| 0 <= l < |items| && Target(nodes, items[l]) == Some(j);
        assert r[j].anchor == Mark(items[l].id, headerHeight, dom[j].anchor);
        assert l != k;
        if l < k {
          assert items[l].id != items[k].id;
        } else {
          assert items[k].id != items[l].id;
        }
      }
    }
    SoleCarrier(r, id, t);
  }

  /** A pass over a fresh document settles it. */
  lemma PassSettles(dom: Dom, items: seq<NotionPage.TocItem>, headerHeight: Num)
    requires Fresh(dom, items)
    ensures Settled(AssignIds(dom, items, headerHeight), items)
  {
    var r := AssignIds(dom, items, headerHeight);
    forall k | 0 <= k < |items|
      ensures items[k].id == "" || GetElementById(r, items[k].id).Some? || Target(Nodes(r), items[k]).None?
    {
      if Target(Nodes(dom), items[k]).Some? {
        IdResolvesToTarget(dom, items, headerHeight, k);
      }
    }
  }

  /** Re-running the effect after a pass over a fresh document changes
      nothing. */
  lemma PassIdempotentWhenFresh(dom: Dom, items: seq<NotionPage.TocItem>, headerHeight: Num)
    requires Fresh(dom, items)
    ensures AssignIds(AssignIds(dom, items, headerHeight), items, headerHeight) == AssignIds(dom, items, headerHeight)
  {
    PassSettles(dom, items, headerHeight);
    SettledFixpoint(AssignIds(dom, items, headerHeight), items, headerHeight);
  }

  /** After the pass, clicking an entry of the table of contents scrolls to
      the element that entry stands for. */
  lemma ClickAfterPassReachesTarget(
    dom: Dom, items: seq<NotionPage.TocItem>, headerHeight: Num, k: nat, scrollY: int)
    requires Fresh(dom, items) && k < |items| && Target(Nodes(dom), items[k]).Some?
    ensures var c := NotionPage.OnTocItemClick(AssignIds(dom, items, headerHeight), items[k].id, scrollY, headerHeight);
      c.Jump? && c.target == Target(Nodes(dom), items[k]).value && c.hash == "#" + items[k].id
  {
    IdResolvesToTarget(dom, items, headerHeight, k);
  }

  /** A heading container holding a heading title `Intro`, and two entries
      whose text is that title. */
  const IntroContainer := Node(None, None, false, true, "", None, 0)
  const IntroTitle := Node(None, None, true, false, "Intro", Some(0), 0)
  const IntroDom: Dom := [Element(IntroContainer, Anchor(None, None)), Element(IntroTitle, Anchor(None, None))]
  const IntroItems := [NotionPage.TocItem("a", "Intro", 0), NotionPage.TocItem("b", "Intro", 0)]

  lemma IntroLookups()
    ensures QueryDataId(Nodes(IntroDom), "a").None? && QueryDataBlockId(Nodes(IntroDom), "a").None?
    ensures QueryDataId(Nodes(IntroDom), "b").None? && QueryDataBlockId(Nodes(IntroDom), "b").None?
    ensures FindHeadingTitle(Nodes(IntroDom), "Intro") == Some(1)
  {
    var nodes := Nodes(IntroDom);
    assert nodes[0] == IntroContainer && nodes[1] == IntroTitle;
  }

  lemma IntroClosest()
    ensures Closest(Nodes(IntroDom), 1) == Some(0)
  {
    var nodes := Nodes(IntroDom);
    assert nodes[0] == IntroContainer && nodes[1] == IntroTitle;
    assert ParentOf(nodes, 1) == Some(0);
  }

  lemma IntroTargets()
    ensures Target(Nodes(IntroDom), IntroItems[0]) == Some(0)
    ensures Target(Nodes(IntroDom), IntroItems[1]) == Some(0)
  {
    IntroLookups();
    IntroClosest();
  }

  const IntroAfterFirst: Dom :=
    [Element(IntroContainer, Mark("a", Finite(0), Anchor(None, None))), Element(IntroTitle, Anchor(None, None))]
  const IntroAfterBoth: Dom :=
    [Element(IntroContainer, Mark("b", Finite(0), IntroAfterFirst[0].anchor)), Element(IntroTitle, Anchor(None, None))]

  lemma IntroNoIds()
    ensures GetElementById(IntroDom, "a").None?
  {
    assert IntroDom[0].anchor.id == None && IntroDom[1].anchor.id == None;
  }

  lemma IntroFirstStep()
    ensures StepItem(IntroDom, IntroItems[0], Finite(0)) == IntroAfterFirst
  {
    IntroTargets();
    IntroNoIds();
  }

  lemma IntroAfterFirstNodes()
    ensures Nodes(IntroAfterFirst) == Nodes(IntroDom)
    ensures GetElementById(IntroAfterFirst, "b").None?
  {
    assert Nodes(IntroAfterFirst)[0] == Nodes(IntroDom)[0];
    assert Nodes(IntroAfterFirst)[1] == Nodes(IntroDom)[1];
  }

  lemma IntroSecondStep()
    ensures StepItem(IntroAfterFirst, IntroItems[1], Finite(0)) == IntroAfterBoth
  {
    IntroTargets();
    IntroAfterFirstNodes();
  }

  /** A two-entry pass is the two steps in order. */
  lemma AssignIdsPair(dom: Dom, a: NotionPage.TocItem, b: NotionPage.TocItem, headerHeight: Num)
    ensures AssignIds(dom, [a, b], headerHeight) == StepItem(StepItem(dom, a, headerHeight), b, headerHeight)
  {
    assert [a, b][1..] == [b];
    assert [b][1..] == [];
  }

  lemma IntroPass()
    ensures AssignIds(IntroDom, IntroItems, Finite(0)) == IntroAfterBoth
  {
    AssignIdsPair(IntroDom, IntroItems[0], IntroItems[1], Finite(0));
    IntroFirstStep();
    IntroSecondStep();
  }

  /** Without freshness a click can find nothing: two entries whose heading
      text is the same stand for the same heading, so the second entry's id
      overwrites the first's, and the first entry's link then has no
      element to scroll to. */
  lemma SameTextLosesFirst()
    ensures var once := AssignIds(IntroDom, IntroItems, Finite(0));
      && GetElementById(once, "b") == Some(0)
      && GetElementById(once, "a").None?
      && NotionPage.OnTocItemClick(once, "a", 0, Finite(0)) == NotionPage.NoTarget
  {
    IntroPass();
    var once := IntroAfterBoth;
    assert Nodes(once)[0] == IntroContainer && Nodes(once)[1] == IntroTitle;
  }

  /** Without freshness the effect need not be idempotent: an element whose
      own id equals an entry's id makes the pass skip that entry, and when a
      later entry overwrites that id the next run binds the skipped entry. */
  lemma NotIdempotentInGeneral()
    ensures
      var a := Node(Some("a"), None, false, false, "", None, 0);
      var b := Node(Some("b"), None, false, false, "", None, 0);
      var dom := [Element(a, Anchor(None, None)), Element(b, Anchor(Some("a"), None))];
      var items := [NotionPage.TocItem("a", "A", 0), NotionPage.TocItem("b", "B", 0)];
      var once := AssignIds(dom, items, Finite(0));
      AssignIds(once, items, Finite(0)) != once
  {
    var a := Node(Some("a"), None, false, false, "", None, 0);
    var b := Node(Some("b"), None, false, false, "", None, 0);
    var dom := [Element(a, Anchor(None, None)), Element(b, Anchor(Some("a"), None))];
    var items := [NotionPage.TocItem("a", "A", 0), NotionPage.TocItem("b", "B", 0)];
    var m := Mark("b", Finite(0), Anchor(Some("a"), None));
    assert dom[0].anchor.id == None && dom[1].anchor.id == Some("a");
    assert GetElementById(dom, "a") == Some(1);
    var d1 := StepItem(dom, items[0], Finite(0));
    assert d1 == dom;
    assert GetElementById(dom, "b") == None;
    assert QueryDataId(Nodes(dom), "b") == Some(1);
    var once := [Element(a, Anchor(None, None)), Element(b, m)];
    assert StepItem(d1, items[1], Finite(0)) == once;
    assert AssignIds(dom, items, Finite(0)) == once by {
      assert items[1..] == [items[1]];
      assert items[1..][1..] == [];
    }
    assert GetElementById(once, "a") == None;
    assert QueryDataId(Nodes(once), "a") == Some(0);
    var twice := StepItem(once, items[0], Finite(0));
    assert twice[0].anchor == Mark("a", Finite(0), Anchor(None, None));
    assert AssignIds(once, items, Finite(0))[0].anchor.id == Some("a") by {
      assert GetElementById(twice, "b") == Some(1);
      assert items[1..] == [items[1]];
      assert StepItem(twice, items[1], Finite(0)) == twice;
      assert items[1..][1..] == [];
    }
  }
}

=== FILE: js.dfy ===
/**
 The slice of JavaScript semantics that the site's TypeScript relies on:
 optional values, truthiness of strings (`''` and `undefined` are falsy),
 the `||` and `??` fallbacks, `String.prototype.trim`, `split` on a
 one-character separator, `startsWith`, lower-casing of ASCII letters,
 and numbers that may be `NaN` together with `parseInt(s, 10)`.
 */
module Js {

  /** `undefined` or a value. */
  datatype Option<+T> = None | Some(value: T)

  // ---------------------------------------------------------------------------
  // Truthiness and fallbacks
  // ---------------------------------------------------------------------------

  /** A string value is truthy in JavaScript iff it is defined and non-empty. */
  predicate Truthy(s: Option<string>) {
    s.Some? && s.value != ""
  }

  /** `a || b` on optional strings. */
  function Or(a: Option<string>, b: Option<string>): Option<string> {
    if Truthy(a) then a else b
  }

  /** `a || d` where the default `d` is a string literal. */
  function OrElse(a: Option<string>, d: string): string {
    if Truthy(a) then a.value else d
  }

  /** `a ?? b`: only `undefined` falls through, an empty string is kept. */
  function Coalesce<T>(a: Option<T>, b: Option<T>): Option<T> {
    if a.Some? then a else b
  }

  lemma OrElseNonEmpty(a: Option<string>, d: string)
    requires d != ""
    ensures OrElse(a, d) != ""
  {
  }

  // ---------------------------------------------------------------------------
  // trim()
  // ---------------------------------------------------------------------------

  /** ECMAScript WhiteSpace and LineTerminator code points: the characters
      that `trim()` removes. */
  predicate IsWhitespace(c: char) {
    || c == ' ' || c == '\t' || c == '\n' || c == '\r'
    || c == '\U{B}' || c == '\U{C}'
    || c == '\U{A0}' || c == '\U{1680}'
    || ('\U{2000}' <= c <= '\U{200A}')
    || c == '\U{2028}' || c == '\U{2029}'
    || c == '\U{202F}' || c == '\U{205F}' || c == '\U{3000}' || c == '\U{FEFF}'
  }

  function TrimStart(s: string): (r: string)
    ensures |r| <= |s| && r == s[|s| - |r|..]
    ensures r == [] || !IsWhitespace(r[0])
    ensures forall i :: 0 <= i < |s| - |r| ==> IsWhitespace(s[i])
  {
    if s != [] && IsWhitespace(s[0]) then TrimStart(s[1..]) else s
  }

  function TrimEnd(s: string): (r: string)
    ensures |r| <= |s| && r == s[..|r|]
    ensures r == [] || !IsWhitespace(r[|r| - 1])
    ensures forall i :: |r| <= i < |s| ==> IsWhitespace(s[i])
  {
    if s != [] && IsWhitespace(s[|s| - 1]) then TrimEnd(s[..|s| - 1]) else s
  }

  /** `s.trim()`: every leading and trailing white-space character removed. */
  function Trim(s: string): (r: string)
    ensures |r| <= |s|
    ensures r == [] || (!IsWhitespace(r[0]) && !IsWhitespace(r[|r| - 1]))
    ensures exists a :: TrimmedAt(s, r, a)
  {
    var t := TrimStart(s);
    var r := TrimEnd(t);
    assert TrimmedAt(s, r, |s| - |t|) by {
      forall i | |s| - |t| + |r| <= i < |s| ensures IsWhitespace(s[i]) {
        assert s[i] == t[i - (|s| - |t|)];
      }
    }
    r
  }

  /** `r` sits in `s` at offset `a`, and everything of `s` before and after
      it is white space. With `r` starting and ending on other characters,
      this determines `r`. */
  predicate TrimmedAt(s: string, r: string, a: int) {
    && 0 <= a <= a + |r| <= |s|
    && r == s[a..a + |r|]
    && (forall i :: 0 <= i < a ==> IsWhitespace(s[i]))
    && (forall i :: a + |r| <= i < |s| ==> IsWhitespace(s[i]))
  }

  /** Only one trimmed string sits in `s` with white space around it, so
      `Trim`'s contract pins its result. */
  lemma TrimmedAtUnique(s: string, r1: string, a1: int, r2: string, a2: int)
    requires IsTrimmed(r1) && TrimmedAt(s, r1, a1)
    requires IsTrimmed(r2) && TrimmedAt(s, r2, a2)
    ensures r1 == r2
  {
    if r1 != [] && r2 != [] {
      assert s[a1] == r1[0] && s[a2] == r2[0];
      assert a1 == a2;
      assert s[a1 + |r1| - 1] == r1[|r1| - 1] && s[a2 + |r2| - 1] == r2[|r2| - 1];
      assert |r1| == |r2|;
    }
  }

  /** The trimmed string is an infix of the original, so it has no character
      the original lacks. */
  lemma TrimInfix(s: string)
    ensures Trim(s) == s[|s| - |TrimStart(s)|..][..|Trim(s)|]
    ensures forall c :: c in Trim(s) ==> c in s
  {
    var t := TrimStart(s);
    var r := Trim(s);
    assert t == s[|s| - |t|..];
    assert r == t[..|r|];
    assert forall c :: c in t ==> c in s;
  }

  /** A string with no white space at either end. */
  predicate IsTrimmed(s: string) {
    s == [] || (!IsWhitespace(s[0]) && !IsWhitespace(s[|s| - 1]))
  }

  lemma {:induction false} TrimOfTrimmed(s: string)
    requires IsTrimmed(s)
    ensures Trim(s) == s
  {
    assert TrimStart(s) == s;
  }

  /** Surrounding a trimmed string with blanks does not survive `trim()`. */
  lemma {:induction false} TrimPadded(pre: string, s: string, post: string)
    requires IsTrimmed(s) && s != []
    requires forall i :: 0 <= i < |pre| ==> IsWhitespace(pre[i])
    requires forall i :: 0 <= i < |post| ==> IsWhitespace(post[i])
    ensures Trim(pre + s + post) == s
  {
    assert (s + post)[0] == s[0];
    calc {
      Trim(pre + s + post);
      { assert pre + s + post == pre + (s + post); }
      TrimEnd(TrimStart(pre + (s + post)));
      { TrimStartPrefix(pre, s + post); }
      TrimEnd(s + post);
      { TrimEndSuffix(s, post); }
      s;
    }
  }

  /** White space in front of a string that starts with a non-blank is
      exactly what `trimStart` removes. */
  lemma TrimStartPrefix(pre: string, rest: string)
    requires forall i :: 0 <= i < |pre| ==> IsWhitespace(pre[i])
    requires rest != [] && !IsWhitespace(rest[0])
    ensures TrimStart(pre + rest) == rest
  {
    var s := pre + rest;
    var r := TrimStart(s);
    var n := |s| - |r|;
    assert s[|pre|] == rest[0];
    assert n <= |pre|;
    assert forall i :: 0 <= i < |pre| ==> s[i] == pre[i];
    assert n >= |pre|;
    assert s[|pre|..] == rest;
  }

  /** White space after a string that ends with a non-blank is exactly what
      `trimEnd` removes. */
  lemma TrimEndSuffix(s: string, post: string)
    requires forall i :: 0 <= i < |post| ==> IsWhitespace(post[i])
    requires s != [] && !IsWhitespace(s[|s| - 1])
    ensures TrimEnd(s + post) == s
  {
    var t := s + post;
    var r := TrimEnd(t);
    assert t[|s| - 1] == s[|s| - 1];
    assert |r| >= |s|;
    assert forall i :: |s| <= i < |t| ==> t[i] == post[i - |s|];
    assert |r| <= |s|;
    assert t[..|s|] == s;
  }

  // ---------------------------------------------------------------------------
  // split(sep) and its inverse join(sep)
  // ---------------------------------------------------------------------------

  /** `s.split(sep)` for a one-character separator: every part is free of
      `sep`, and there is one more part than occurrences of `sep`
      (so `''.split(',')` is `['']`). */
  function Split(s: string, sep: char): (parts: seq<string>)
    ensures |parts| >= 1
    ensures forall k :: 0 <= k < |parts| ==> sep !in parts[k]
  {
    if s == [] then [[]]
    else
      var rest := Split(s[1..], sep);
      if s[0] == sep then [[]] + rest
      else [[s[0]] + rest[0]] + rest[1..]
  }

  /** `parts.join(sep)`. */
  function Join(parts: seq<string>, sep: char): string
    requires |parts| >= 1
  {
    if |parts| == 1 then parts[0] else parts[0] + [sep] + Join(parts[1..], sep)
  }

  /** Joining the parts of a split gives back the original text. */
  lemma {:induction false} JoinSplit(s: string, sep: char)
    ensures Join(Split(s, sep), sep) == s
  {
    if s != [] {
      var rest := Split(s[1..], sep);
      JoinSplit(s[1..], sep);
      if s[0] != sep {
        if |rest| == 1 {
          assert s == [s[0]] + s[1..];
        } else {
          var tail := Join(rest[1..], sep);
          assert Join(rest, sep) == rest[0] + [sep] + tail;
          assert ([s[0]] + rest[0]) + [sep] + tail == [s[0]] + (rest[0] + [sep] + tail);
          assert s == [s[0]] + s[1..];
        }
      } else {
        assert Join([[]] + rest, sep) == [] + [sep] + Join(rest, sep);
        assert s == [s[0]] + s[1..];
      }
    }
  }

  /** Splitting a separator-free piece followed by the separator yields the
      piece, then the split of the rest. */
  lemma {:induction false} SplitAfterPiece(p: string, sep: char, rest: string)
    requires sep !in p
    ensures Split(p + [sep] + rest, sep) == [p] + Split(rest, sep)
    decreases |p|
  {
    var s := p + [sep] + rest;
    if p == [] {
      assert s[0] == sep && s[1..] == rest;
    } else {
      var tail := p[1..] + [sep] + rest;
      assert s[0] == p[0] && s[1..] == tail;
      assert sep !in p[1..] by {
        assert forall c :: c in p[1..] ==> c in p;
      }
      SplitAfterPiece(p[1..], sep, rest);
      assert Split(tail, sep) == [p[1..]] + Split(rest, sep);
      assert [p[0]] + p[1..] == p;
    }
  }

  /** Splitting a join of separator-free parts gives back those parts. */
  lemma {:induction false} SplitJoin(parts: seq<string>, sep: char)
    requires |parts| >= 1
    requires forall k :: 0 <= k < |parts| ==> sep !in parts[k]
    ensures Split(Join(parts, sep), sep) == parts
    decreases |parts|
  {
    if |parts| == 1 {
      SplitFree(parts[0], sep);
    } else {
      var rest := parts[1..];
      assert forall k :: 0 <= k < |rest| ==> sep !in rest[k] by {
        forall k | 0 <= k < |rest| ensures sep !in rest[k] {
          assert rest[k] == parts[k + 1];
        }
      }
      SplitJoin(rest, sep);
      SplitAfterPiece(parts[0], sep, Join(rest, sep));
      assert parts == [parts[0]] + rest;
    }
  }

  lemma {:induction false} SplitFree(s: string, sep: char)
    requires sep !in s
    ensures Split(s, sep) == [s]
  {
    if s != [] {
      assert sep !in s[1..] by {
        assert forall c :: c in s[1..] ==> c in s;
      }
      SplitFree(s[1..], sep);
      assert [s[0]] + s[1..] == s;
    }
  }

  // ---------------------------------------------------------------------------
  // startsWith, lower-casing
  // ---------------------------------------------------------------------------

  /** `s.startsWith(prefix)`. */
  predicate StartsWith(s: string, prefix: string) {
    |prefix| <= |s| && forall i :: 0 <= i < |prefix| ==> s[i] == prefix[i]
  }

  function LowerChar(c: char): char {
    if 'A' <= c <= 'Z' then (c as int + 32) as char else c
  }

  /** `s.toLowerCase()` restricted to ASCII letters; every other character is
      kept as it is. */
  function ToLower(s: string): (r: string)
    ensures |r| == |s|
    ensures forall i :: 0 <= i < |s| ==> r[i] == LowerChar(s[i])
  {
    seq(|s|, i requires 0 <= i < |s| => LowerChar(s[i]))
  }

  // ---------------------------------------------------------------------------
  // Numbers that may be NaN, and parseInt(s, 10)
  // ---------------------------------------------------------------------------

  /** A JavaScript number restricted to integers, or `NaN`. */
  datatype Num = Finite(v: int) | NaN

  /** `Math.max(a, b, c)`: `NaN` if any argument is `NaN`. */
  function Max3(a: Num, b: Num, c: Num): (r: Num)
    ensures r.NaN? <==> (a.NaN? || b.NaN? || c.NaN?)
    ensures r.Finite? ==> r.v >= a.v && r.v >= b.v && r.v >= c.v
    ensures r.Finite? ==> r.v == a.v || r.v == b.v || r.v == c.v
  {
    if a.NaN? || b.NaN? || c.NaN? then NaN
    else
      var m := if a.v >= b.v then a.v else b.v;
      Finite(if m >= c.v then m else c.v)
  }

  predicate IsDigit(c: char) {
    '0' <= c <= '9'
  }

  function DigitValue(c: char): nat
    requires IsDigit(c)
  {
    c as int - '0' as int
  }

  /** The longest prefix of `s` made of decimal digits. */
  function DigitPrefix(s: string): (r: string)
    ensures |r| <= |s| && r == s[..|r|]
    ensures forall i :: 0 <= i < |r| ==> IsDigit(r[i])
    ensures |r| < |s| ==> !IsDigit(s[|r|])
  {
    if s != [] && IsDigit(s[0]) then [s[0]] + DigitPrefix(s[1..]) else []
  }

  /** The value of a string of decimal digits, most significant first. */
  function DigitsValue(ds: string): nat
    requires forall i :: 0 <= i < |ds| ==> IsDigit(ds[i])
  {
    if ds == [] then 0
    else DigitsValue(ds[..|ds| - 1]) * 10 + DigitValue(ds[|ds| - 1])
  }

  /** `s[k]` is the first digit `parseInt` reads: only white space comes
      before it, save for one sign just before it. */
  predicate DigitStart(s: string, k: int) {
    && 0 <= k < |s| && IsDigit(s[k])
    && (|| (forall i :: 0 <= i < k ==> IsWhitespace(s[i]))
        || (k > 0 && (s[k - 1] == '-' || s[k - 1] == '+') && forall i :: 0 <= i < k - 1 ==> IsWhitespace(s[i])))
  }

  /** `parseInt(s, 10)`: leading white space, an optional sign, then the
      longest run of digits; `NaN` when there is no digit. */
  function ParseInt(s: string): (r: Num)
    ensures r.Finite? <==> exists k :: DigitStart(s, k)
    ensures r.Finite? && r.v < 0 ==> exists k :: DigitStart(s, k) && k > 0 && s[k - 1] == '-'
  {
    var t := TrimStart(s);
    var neg := t != [] && t[0] == '-';
    var ds := DigitPrefix(SignedBody(t));
    SignedDigitStart(s);
    if ds == [] then NaN
    else Finite(if neg then -(DigitsValue(ds) as int) else DigitsValue(ds))
  }

  /** What `parseInt` reads after the leading white space and one optional
      sign. */
  function SignedBody(t: string): string {
    if t != [] && (t[0] == '-' || t[0] == '+') then t[1..] else t
  }

  /** After the leading white space and an optional sign, a digit follows
      exactly when the string has a digit start; a minus sign then stands
      just before it. */
  lemma SignedDigitStart(s: string)
    ensures var t := TrimStart(s);
      && (SignedBody(t) != [] && IsDigit(SignedBody(t)[0]) <==> exists k :: DigitStart(s, k))
      && (t != [] && t[0] == '-' && SignedBody(t) != [] && IsDigit(SignedBody(t)[0]) ==>
            DigitStart(s, |s| - |t| + 1) && s[|s| - |t|] == '-')
  {
    var t := TrimStart(s);
    if SignedBody(t) != [] && IsDigit(SignedBody(t)[0]) {
      DigitStartOfBody(s);
    }
    if exists k :: DigitStart(s, k) {
      var k :| DigitStart(s, k);
      BodyOfDigitStart(s, k);
    }
  }

  lemma DigitStartOfBody(s: string)
    requires var t := TrimStart(s); SignedBody(t) != [] && IsDigit(SignedBody(t)[0])
    ensures var t := TrimStart(s);
      && (t[0] == '-' || t[0] == '+' ==> DigitStart(s, |s| - |t| + 1) && s[|s| - |t|] == t[0])
      && (t[0] != '-' && t[0] != '+' ==> DigitStart(s, |s| - |t|))
  {
    var t := TrimStart(s);
    var a := |s| - |t|;
    assert s[a] == t[0];
    if t[0] == '-' || t[0] == '+' {
      assert s[a + 1] == t[1];
    }
  }

  lemma BodyOfDigitStart(s: string, k: int)
    requires DigitStart(s, k)
    ensures var t := TrimStart(s); SignedBody(t) != [] && IsDigit(SignedBody(t)[0])
  {
    if forall i :: 0 <= i < k ==> IsWhitespace(s[i]) {
      TrimStartAt(s, k);
      UnsignedBody(s[k..]);
    } else {
      TrimStartAt(s, k - 1);
      SignedBodyDigit(s[k - 1..]);
    }
  }

  lemma UnsignedBody(t: string)
    requires t != [] && IsDigit(t[0])
    ensures SignedBody(t) != [] && IsDigit(SignedBody(t)[0])
  {
  }

  lemma SignedBodyDigit(t: string)
    requires |t| >= 2 && (t[0] == '-' || t[0] == '+') && IsDigit(t[1])
    ensures SignedBody(t) != [] && IsDigit(SignedBody(t)[0])
  {
  }

  /** White space up to a first other character at `k`: trimming the start
      drops exactly `k` characters. */
  lemma {:induction false} TrimStartAt(s: string, k: int)
    requires 0 <= k < |s| && !IsWhitespace(s[k])
    requires forall i :: 0 <= i < k ==> IsWhitespace(s[i])
    ensures TrimStart(s) == s[k..]
    decreases k
  {
    if k > 0 {
      var tail := s[1..];
      assert forall i :: 0 <= i < k - 1 ==> tail[i] == s[i + 1];
      TrimStartAt(tail, k - 1);
      assert tail[k - 1..] == s[k..];
    }
  }

  /** Decimal rendering of a natural number, as `String(n)` writes it. */
  function ShowNat(n: nat): (r: string)
    ensures r != [] && forall i :: 0 <= i < |r| ==> IsDigit(r[i])
  {
    if n < 10 then ['0' + n as char]
    else ShowNat(n / 10) + ['0' + (n % 10) as char]
  }

  lemma {:induction false} DigitsValueShow(n: nat)
    ensures DigitsValue(ShowNat(n)) == n
  {
    if n >= 10 {
      var s := ShowNat(n);
      assert s[..|s| - 1] == ShowNat(n / 10);
      DigitsValueShow(n / 10);
    }
  }

  lemma {:induction false} DigitPrefixOf(ds: string, rest: string)
    requires forall i :: 0 <= i < |ds| ==> IsDigit(ds[i])
    requires rest == [] || !IsDigit(rest[0])
    ensures DigitPrefix(ds + rest) == ds
  {
    if ds == [] {
      assert ds + rest == rest;
    } else {
      assert (ds + rest)[1..] == ds[1..] + rest;
      DigitPrefixOf(ds[1..], rest);
      assert [ds[0]] + ds[1..] == ds;
    }
  }

  /** `parseInt` reads back a rendered length such as `"64px"`. */
  lemma ParseIntShow(n: nat, unit: string)
    requires unit == [] || !IsDigit(unit[0])
    ensures ParseInt(ShowNat(n) + unit) == Finite(n)
  {
    var s := ShowNat(n) + unit;
    assert !IsWhitespace(s[0]);
    assert TrimStart(s) == s;
    DigitPrefixOf(ShowNat(n), unit);
    DigitsValueShow(n);
  }
}

=== FILE: mobile_navigation.dfy ===
/**
 The mobile navigation context: two flags (sidebar open, search overlay
 open), the six callbacks that change them, the overlay and sidebar events
 that call those callbacks, and the body scroll lock the sidebar holds.
 */
module MobileNavigation {

  datatype NavState = NavState(isOpen: bool, isSearchOpen: bool)

  const Initial := NavState(false, false)

  /** The provider starts with nothing open, so nothing is rendered and the
      flags are exclusive. */
  lemma InitialClosed()
    ensures !Initial.isOpen && !Initial.isSearchOpen
    ensures Exclusive(Initial) && !OverlayRendered(Initial) && !SidebarRendered(Initial)
  {
  }

  /** `open`: only the sidebar flag changes; search is left as it was. */
  function Open(s: NavState): (t: NavState)
    ensures t.isOpen && t.isSearchOpen == s.isSearchOpen
  {
    s.(isOpen := true)
  }

  /** `close`: closes the sidebar and the search overlay. */
  function Close(s: NavState): (t: NavState)
    ensures !t.isOpen && !t.isSearchOpen
  {
    NavState(false, false)
  }

  /** `toggle`: flips the sidebar; search is left as it was. */
  function Toggle(s: NavState): (t: NavState)
    ensures t.isOpen == !s.isOpen && t.isSearchOpen == s.isSearchOpen
  {
    s.(isOpen := !s.isOpen)
  }

  /** `openSearch`: opens search and closes the sidebar. */
  function OpenSearch(s: NavState): (t: NavState)
    ensures t.isSearchOpen && !t.isOpen
  {
    NavState(false, true)
  }

  /** `closeSearch`: closes search; the sidebar is left as it was. */
  function CloseSearch(s: NavState): (t: NavState)
    ensures !t.isSearchOpen && t.isOpen == s.isOpen
  {
    s.(isSearchOpen := false)
  }

  /** `toggleSearch`: from search-open it only closes search; from
      search-closed it opens search and closes the sidebar. */
  function ToggleSearch(s: NavState): (t: NavState)
    ensures s.isSearchOpen ==> t == CloseSearch(s)
    ensures !s.isSearchOpen ==> t == OpenSearch(s)
    ensures t.isSearchOpen == !s.isSearchOpen
  {
    if s.isSearchOpen then s.(isSearchOpen := false)
    else NavState(false, true)
  }

  datatype Action = DoOpen | DoClose | DoToggle | DoOpenSearch | DoCloseSearch | DoToggleSearch

  function Step(s: NavState, a: Action): NavState {
    match a
    case DoOpen => Open(s)
    case DoClose => Close(s)
    case DoToggle => Toggle(s)
    case DoOpenSearch => OpenSearch(s)
    case DoCloseSearch => CloseSearch(s)
    case DoToggleSearch => ToggleSearch(s)
  }

  function Run(s: NavState, actions: seq<Action>): NavState
    decreases |actions|
  {
    if actions == [] then s else Run(Step(s, actions[0]), actions[1..])
  }

  /** The sidebar and the search overlay are not both open. */
  predicate Exclusive(s: NavState) {
    !(s.isOpen && s.isSearchOpen)
  }

  /** The action opens the sidebar while search is open. */
  predicate OpensSidebarOverSearch(s: NavState, a: Action) {
    s.isSearchOpen && (a == DoOpen || a == DoToggle)
  }

  /** From an exclusive state, an action keeps the flags exclusive exactly
      when it is not `open` or `toggle` issued while search is open: the
      search-side callbacks and `close` enforce exclusion, `open` and
      `toggle` do not. */
  lemma StepExclusive(s: NavState, a: Action)
    requires Exclusive(s)
    ensures Exclusive(Step(s, a)) <==> !OpensSidebarOverSearch(s, a)
  {
  }

  /** Every action other than `open` and `toggle` yields an exclusive state
      from any state. */
  lemma SearchSideEnforcesExclusion(s: NavState, a: Action)
    requires a != DoOpen && a != DoToggle
    ensures Exclusive(Step(s, a))
  {
  }

  /** The run never opens the sidebar over an open search. */
  predicate NeverOverSearch(s: NavState, actions: seq<Action>)
    decreases |actions|
  {
    actions == [] || (!OpensSidebarOverSearch(s, actions[0]) && NeverOverSearch(Step(s, actions[0]), actions[1..]))
  }

  /** Exclusion holds after any run from the initial state that never opens
      the sidebar over an open search. */
  lemma {:induction false} RunExclusive(s: NavState, actions: seq<Action>)
    requires Exclusive(s)
    requires NeverOverSearch(s, actions)
    ensures Exclusive(Run(s, actions))
    decreases |actions|
  {
    if actions != [] {
      StepExclusive(s, actions[0]);
      RunExclusive(Step(s, actions[0]), actions[1..]);
    }
  }

  /** `open` from the state with search open shows both at once. */
  lemma OpenKeepsSearch()
    ensures Run(Initial, [DoOpenSearch, DoOpen]) == NavState(true, true)
  {
  }

  // ---------------------------------------------------------------------------
  // What is rendered, and the events that close things
  // ---------------------------------------------------------------------------

  /** `{isSearchOpen && <MobileSearchOverlay/>}`. */
  predicate OverlayRendered(s: NavState) {
    s.isSearchOpen
  }

  /** `MobileSidebar` returns `null` unless the sidebar is open. */
  predicate SidebarRendered(s: NavState) {
    s.isOpen
  }

  /** A key press, or a click whose target is the overlay backdrop itself
      (`e.target === e.currentTarget`) or something inside it. */
  datatype OverlayEvent = KeyDown(key: string) | OverlayClick(onBackdrop: bool)

  /** The overlay's listeners exist only while it is rendered: Escape and a
      backdrop click call `closeSearch`; nothing else changes the state. */
  function OnOverlayEvent(s: NavState, e: OverlayEvent): (t: NavState)
    ensures OverlayRendered(s) && (e == KeyDown("Escape") || e == OverlayClick(true)) ==> t == CloseSearch(s)
    ensures !(OverlayRendered(s) && (e == KeyDown("Escape") || e == OverlayClick(true))) ==> t == s
  {
    if !OverlayRendered(s) then s
    else
      match e
      case KeyDown(key) => if key == "Escape" then CloseSearch(s) else s
      case OverlayClick(onBackdrop) => if onBackdrop then CloseSearch(s) else s
  }

  /** The sidebar's controls. */
  datatype SidebarEvent =
    | SidebarClick(onBackdrop: bool)
    | CloseButton
    | HomeLink
    | SearchButton
    | ThemeButton
    | PremiumLink

  /** The state after a sidebar control, and whether the theme was toggled.
      The search button exists only when search is enabled and calls
      `toggleSearch`; the theme button toggles dark mode and closes; the
      other controls close. */
  datatype SidebarReaction = SidebarReaction(state: NavState, themeToggled: bool)

  function OnSidebarEvent(s: NavState, e: SidebarEvent, searchEnabled: bool): (r: SidebarReaction)
    ensures !SidebarRendered(s) ==> r == SidebarReaction(s, false)
    ensures r.themeToggled <==> SidebarRendered(s) && e == ThemeButton
    ensures SidebarRendered(s) && e == SearchButton && searchEnabled ==> r.state == ToggleSearch(s)
    ensures SidebarRendered(s) && e != SearchButton && e != SidebarClick(false) ==> r.state == Close(s)
    ensures e == SidebarClick(false) || (e == SearchButton && !searchEnabled) ==> r.state == s
  {
    if !SidebarRendered(s) then SidebarReaction(s, false)
    else
      match e
      case SidebarClick(onBackdrop) => SidebarReaction(if onBackdrop then Close(s) else s, false)
      case CloseButton => SidebarReaction(Close(s), false)
      case HomeLink => SidebarReaction(Close(s), false)
      case SearchButton => SidebarReaction(if searchEnabled then ToggleSearch(s) else s, false)
      case ThemeButton => SidebarReaction(Close(s), true)
      case PremiumLink => SidebarReaction(Close(s), false)
  }

  /** The sidebar's search button switches from the sidebar to search when
      search was closed, but with search already open (reachable through
      `open`) it closes search and leaves the sidebar open. */
  lemma SearchButtonFromBothOpen()
    ensures OnSidebarEvent(NavState(true, true), SearchButton, true).state == NavState(true, false)
    ensures OnSidebarEvent(NavState(true, false), SearchButton, true).state == NavState(false, true)
  {
  }

  // ---------------------------------------------------------------------------
  // The body scroll lock
  // ---------------------------------------------------------------------------

  const Hidden := "hidden"
  const Unset := "unset"

  /** The effect body for one value of `isOpen`. */
  function OverflowFor(isOpen: bool): string {
    if isOpen then Hidden else Unset
  }

  /** What React does with the sidebar's effect: run its body for the
      current `isOpen`, or run the cleanup it returned. */
  datatype EffectEvent = RunEffect(isOpen: bool) | Cleanup

  /** The overflow value one event leaves behind. */
  function OverflowAfter(e: EffectEvent): string {
    match e
    case RunEffect(v) => OverflowFor(v)
    case Cleanup => Unset
  }

  /** `document.body.style.overflow` after the events, in order. */
  function ApplyEffects(overflow: string, events: seq<EffectEvent>): string
    decreases |events|
  {
    if events == [] then overflow else ApplyEffects(OverflowAfter(events[0]), events[1..])
  }

  /** The events of one mounted sidebar whose `isOpen` took the successive
      values `runs` (the effect re-runs after the previous cleanup whenever
      the value changes), followed by the final cleanup when it unmounts. */
  function Lifecycle(runs: seq<bool>, unmounted: bool): (events: seq<EffectEvent>)
    decreases |runs|
  {
    if runs == [] then (if unmounted then [Cleanup] else [])
    else if |runs| == 1 then [RunEffect(runs[0])] + (if unmounted then [Cleanup] else [])
    else [RunEffect(runs[0]), Cleanup] + Lifecycle(runs[1..], unmounted)
  }

  lemma {:induction false} ApplyEffectsAppend(o: string, a: seq<EffectEvent>, b: seq<EffectEvent>)
    ensures ApplyEffects(o, a + b) == ApplyEffects(ApplyEffects(o, a), b)
    decreases |a|
  {
    if a == [] {
      assert a + b == b;
    } else {
      assert (a + b)[0] == a[0] && (a + b)[1..] == a[1..] + b;
      ApplyEffectsAppend(OverflowAfter(a[0]), a[1..], b);
    }
  }

  /** While mounted the body is locked iff the sidebar is open now, whatever
      came before; once unmounted it is always released. */
  lemma {:induction false} OverflowTracksSidebar(initial: string, runs: seq<bool>, unmounted: bool)
    requires runs != []
    ensures !unmounted ==> ApplyEffects(initial, Lifecycle(runs, unmounted)) == OverflowFor(runs[|runs| - 1])
    ensures !unmounted ==> (ApplyEffects(initial, Lifecycle(runs, unmounted)) == Hidden <==> runs[|runs| - 1])
    ensures unmounted ==> ApplyEffects(initial, Lifecycle(runs, unmounted)) == Unset
    decreases |runs|
  {
    var tail := if unmounted then [Cleanup] else [];
    if |runs| == 1 {
      ApplyEffectsAppend(initial, [RunEffect(runs[0])], tail);
    } else {
      ApplyEffectsAppend(initial, [RunEffect(runs[0]), Cleanup], Lifecycle(runs[1..], unmounted));
      OverflowTracksSidebar(Unset, runs[1..], unmounted);
      assert runs[1..][|runs[1..]| - 1] == runs[|runs| - 1];
    }
  }
}

=== FILE: notion_integration.dfy ===
/**
 The structured-search strategy: the official Notion client's response items
 are reduced to the unique pages, each page gets a minimal block entry in the
 record map, and a search result whose title and description are picked from
 several possible property names.
 */
module NotionIntegration {
  import opened Js
  import opened SearchTypes

  /** A property value as the code reads it: the runs' `plain_text` of its
      `title` array and of its `rich_text` array, when those arrays exist. */
  datatype Prop = Prop(title: Option<seq<string>>, richText: Option<seq<string>>)

  datatype Parent = Parent(databaseId: Option<string>, pageId: Option<string>)

  /** One item of `response.results`; `properties` keeps insertion order. */
  datatype Item = Item(
    objectType: string,
    id: string,
    properties: Option<seq<(string, Prop)>>,
    parent: Option<Parent>)

  const PageSize := 100
  const DescriptionLimit := 100
  const Untitled := "Untitled"
  const NoDescription := "No description available"

  // ---------------------------------------------------------------------------
  // The request sent upstream
  // ---------------------------------------------------------------------------

  datatype NotionQuery = NotionQuery(query: string, pageSize: int, pagesOnly: bool)

  /** The query always asks for 100 results; a truthy `ancestorId` only adds
      a filter on `object = page`, it does not restrict the search to that
      ancestor. */
  function ToNotionQuery(p: SearchParams): (q: NotionQuery)
    ensures q.query == p.query && q.pageSize == PageSize
    ensures q.pagesOnly <==> Truthy(p.ancestorId)
  {
    NotionQuery(p.query, PageSize, Truthy(p.ancestorId))
  }

  // ---------------------------------------------------------------------------
  // Unique pages: filter((item, i, self) => item.objectType === 'page' &&
  //                                         self.findIndex(...) === i)
  // ---------------------------------------------------------------------------

  /** `self.findIndex(page => page.id === id)` searched from `from`. */
  function FindIndexFrom(items: seq<Item>, id: string, from: nat): (r: int)
    requires from <= |items|
    ensures r == -1 || (from <= r < |items| && items[r].id == id)
    ensures r == -1 ==> forall k :: from <= k < |items| ==> items[k].id != id
    ensures r != -1 ==> forall k :: from <= k < r ==> items[k].id != id
    decreases |items| - from
  {
    if from == |items| then -1
    else if items[from].id == id then from
    else FindIndexFrom(items, id, from + 1)
  }

  function FindIndex(items: seq<Item>, id: string): int {
    FindIndexFrom(items, id, 0)
  }

  /** The filter keeps index `j`: a page at the first index of its id among
      ALL items (a non-page item with the same id earlier also counts). */
  predicate Kept(items: seq<Item>, j: int)
    requires 0 <= j < |items|
  {
    items[j].objectType == "page" && FindIndex(items, items[j].id) == j
  }

  /** The ids of a sequence of pages, as a set. */
  function IdSet(pages: seq<Item>): set<string> {
    set k | 0 <= k < |pages| :: pages[k].id
  }

  predicate DistinctIds(pages: seq<Item>) {
    forall a, b :: 0 <= a < b < |pages| ==> pages[a].id != pages[b].id
  }

  /** The kept items among `items[from..]`, in their original order. */
  function UniquePagesFrom(items: seq<Item>, from: nat): (r: seq<Item>)
    requires from <= |items|
    ensures forall k :: 0 <= k < |r| ==>
      var f := FindIndex(items, r[k].id);
      from <= f < |items| && items[f] == r[k] && Kept(items, f)
    ensures forall a, b :: 0 <= a < b < |r| ==>
      FindIndex(items, r[a].id) < FindIndex(items, r[b].id)
    ensures forall j :: from <= j < |items| && Kept(items, j) ==> items[j] in r
    ensures DistinctIds(r)
    decreases |items| - from
  {
    if from == |items| then []
    else
      var rest := UniquePagesFrom(items, from + 1);
      if Kept(items, from) then [items[from]] + rest else rest
  }

  function UniquePages(items: seq<Item>): seq<Item> {
    UniquePagesFrom(items, 0)
  }

  // ---------------------------------------------------------------------------
  // Property lookup and text extraction
  // ---------------------------------------------------------------------------

  /** `properties[name]`: the value stored under that key. */
  function Lookup(props: seq<(string, Prop)>, name: string): (r: Option<Prop>)
    ensures r.Some? <==> exists k :: 0 <= k < |props| && props[k].0 == name
    ensures r.Some? ==> exists k :: 0 <= k < |props| && props[k] == (name, r.value)
  {
    if props == [] then None
    else if props[0].0 == name then Some(props[0].1)
    else
      var r := Lookup(props[1..], name);
      assert forall k :: 0 < k < |props| ==> props[k] == props[1..][k - 1];
      r
  }

  /** `props[n0] || props[n1] || ...`: the value under the first name present. */
  function FirstPresent(props: seq<(string, Prop)>, names: seq<string>): (r: Option<Prop>)
    ensures r.None? <==> forall n :: n in names ==> Lookup(props, n).None?
    ensures r.Some? ==> exists i :: FoundFirstAt(props, names, r, i)
  {
    if names == [] then None
    else
      var p := Lookup(props, names[0]);
      assert names[0] in names;
      assert forall n :: n in names[1..] ==> n in names;
      assert forall n :: n in names ==> n == names[0] || n in names[1..];
      if p.Some? then
        assert FoundFirstAt(props, names, p, 0);
        p
      else
        var r := FirstPresent(props, names[1..]);
        FirstIndexShift(props, names, r);
        r
  }

  /** The value at the first present name of `names`, or none. */
  predicate FoundFirstAt(props: seq<(string, Prop)>, names: seq<string>, r: Option<Prop>, i: int) {
    0 <= i < |names| && r == Lookup(props, names[i]) && forall j :: 0 <= j < i ==> Lookup(props, names[j]).None?
  }

  /** A first present name of the tail, behind an absent head, is the first
      present name of the whole list. */
  lemma FirstIndexShift(props: seq<(string, Prop)>, names: seq<string>, r: Option<Prop>)
    requires names != [] && Lookup(props, names[0]).None?
    requires r.Some? ==> exists i :: FoundFirstAt(props, names[1..], r, i)
    ensures r.Some? ==> exists i :: FoundFirstAt(props, names, r, i)
  {
    if r.Some? {
      var i :| FoundFirstAt(props, names[1..], r, i);
      assert names[1..][i] == names[i + 1];
      forall j | 0 <= j < i + 1 ensures Lookup(props, names[j]).None? {
        if j > 0 { assert names[j] == names[1..][j - 1]; }
      }
      assert FoundFirstAt(props, names, r, i + 1);
    }
  }

  /** `runs?.[0]?.plain_text`. */
  function FirstRun(runs: Option<seq<string>>): Option<string> {
    if runs.Some? && |runs.value| > 0 then Some(runs.value[0]) else None
  }

  /** `p?.title?.[0]?.plain_text`, else `p?.rich_text?.[0]?.plain_text`,
      when truthy. */
  function PropText(p: Option<Prop>): (r: Option<string>)
    ensures r.Some? ==> r.value != ""
    ensures r.None? <==> p.None? || (!Truthy(FirstRun(p.value.title)) && !Truthy(FirstRun(p.value.richText)))
    ensures p.Some? && Truthy(FirstRun(p.value.title)) ==> r == FirstRun(p.value.title)
    ensures p.Some? && !Truthy(FirstRun(p.value.title)) ==> r == Or(FirstRun(p.value.richText), None)
  {
    if p.None? then None
    else if Truthy(FirstRun(p.value.title)) then FirstRun(p.value.title)
    else if Truthy(FirstRun(p.value.richText)) then FirstRun(p.value.richText)
    else None
  }

  function TitleRun(p: Option<Prop>): Option<string> {
    if p.Some? then FirstRun(p.value.title) else None
  }

  /** The title of the record-map block: `Name.title[0]`, then
      `title.title[0]`, then `'Untitled'`. */
  function RecordTitle(props: Option<seq<(string, Prop)>>): (r: string)
    ensures r != ""
    ensures props.None? ==> r == Untitled
    ensures props.Some? && Truthy(TitleRun(Lookup(props.value, "Name"))) ==>
      r == TitleRun(Lookup(props.value, "Name")).value
    ensures props.Some? && !Truthy(TitleRun(Lookup(props.value, "Name"))) && Truthy(TitleRun(Lookup(props.value, "title"))) ==>
      r == TitleRun(Lookup(props.value, "title")).value
    ensures props.Some? && !Truthy(TitleRun(Lookup(props.value, "Name"))) && !Truthy(TitleRun(Lookup(props.value, "title"))) ==>
      r == Untitled
  {
    if props.None? then Untitled
    else OrElse(Or(TitleRun(Lookup(props.value, "Name")), TitleRun(Lookup(props.value, "title"))), Untitled)
  }

  const TitleNames := ["title", "Title", "Name", "name"]
  const DescriptionNames := ["Description", "description", "Summary", "summary"]

  /** The text of the first property in insertion order, if any. */
  function FirstPropertyText(props: seq<(string, Prop)>): Option<string> {
    if |props| > 0 then PropText(Some(props[0].1)) else None
  }

  /** The highlight title: the text of the first present of `title`, `Title`,
      `Name`, `name`; if that leaves `'Untitled'`, the text of the first
      property in insertion order. */
  function HighlightTitle(props: Option<seq<(string, Prop)>>): (r: string)
    ensures r != ""
    ensures props.None? ==> r == Untitled
    ensures r == Untitled
         || Some(r) == PropText(FirstPresent(props.value, TitleNames))
         || (|props.value| > 0 && Some(r) == PropText(Some(props.value[0].1)))
    ensures props.Some? ==> var named := PropText(FirstPresent(props.value, TitleNames));
      named.Some? && named.value != Untitled ==> r == named.value
    ensures props.Some? ==> var named := PropText(FirstPresent(props.value, TitleNames));
      named.None? || named.value == Untitled ==> r == OrElse(FirstPropertyText(props.value), Untitled)
  {
    if props.None? then Untitled
    else
      var named := PropText(FirstPresent(props.value, TitleNames));
      var t := if named.Some? then named.value else Untitled;
      if t == Untitled then
        var first := FirstPropertyText(props.value);
        if first.Some? then first.value else t
      else t
  }

  /** `d.length > 100 ? d.slice(0, 100) + '...' : d`. */
  function Truncate(d: string): (r: string)
    ensures |r| <= DescriptionLimit + 3
    ensures |d| <= DescriptionLimit ==> r == d
    ensures |d| > DescriptionLimit ==> |r| == DescriptionLimit + 3 && r[..DescriptionLimit] == d[..DescriptionLimit] && r[DescriptionLimit..] == "..."
  {
    if |d| > DescriptionLimit then d[..DescriptionLimit] + "..." else d
  }

  /** `descProp?.rich_text?.[0]?.plain_text` for the first present of the
      description names. */
  function DescriptionRun(props: seq<(string, Prop)>): Option<string> {
    var dp := FirstPresent(props, DescriptionNames);
    if dp.Some? then FirstRun(dp.value.richText) else None
  }

  /** The description: the first rich-text run of the first present of
      `Description`, `description`, `Summary`, `summary`, truncated; `''`
      when there is none. */
  function Description(props: Option<seq<(string, Prop)>>): (r: string)
    ensures |r| <= DescriptionLimit + 3
    ensures props.None? ==> r == ""
    ensures r == "" <==> props.None? || !Truthy(DescriptionRun(props.value))
    ensures r != "" ==> r == Truncate(DescriptionRun(props.value).value)
  {
    if props.None? then ""
    else
      var run := DescriptionRun(props.value);
      if Truthy(run) then Truncate(run.value) else ""
  }

  /** `parent?.database_id || parent?.page_id || ''`. */
  function ParentId(parent: Option<Parent>): (r: string)
    ensures parent.Some? && Truthy(parent.value.databaseId) ==> r == parent.value.databaseId.value
    ensures parent.Some? && !Truthy(parent.value.databaseId) && Truthy(parent.value.pageId) ==> r == parent.value.pageId.value
    ensures r == "" <==> parent.None? || (!Truthy(parent.value.databaseId) && !Truthy(parent.value.pageId))
  {
    if parent.None? then "" else OrElse(Or(parent.value.databaseId, parent.value.pageId), "")
  }

  // ---------------------------------------------------------------------------
  // Building the result set
  // ---------------------------------------------------------------------------

  function BlockFor(item: Item): PageBlock {
    PageBlock(
      id := item.id,
      version := 1,
      kind := "page",
      title := RecordTitle(item.properties),
      content := [],
      pageIcon := "",
      pageCover := "",
      pageCoverPosition := 0.5,
      permissions := [Permission("reader", "public_permission")],
      parentId := ParentId(item.parent),
      parentTable := "block",
      alive := true,
      spaceId := "")
  }

  /** `recordMap.block[item.id] = ...` for each page in order; a later page
      with the same id would overwrite an earlier one. */
  function Blocks(pages: seq<Item>): (m: map<string, PageBlock>)
    ensures m.Keys == IdSet(pages)
    ensures forall id :: id in m ==>
      m[id].id == id && m[id].kind == "page" && m[id].parentTable == "block" && m[id].alive
  {
    if pages == [] then map[]
    else
      var last := pages[|pages| - 1];
      var m := Blocks(pages[..|pages| - 1])[last.id := BlockFor(last)];
      assert forall k :: 0 <= k < |pages| - 1 ==> pages[k] == pages[..|pages| - 1][k];
      m
  }

  /** The map callback: a result for a page, `null` for anything else. */
  function ResultFor(item: Item): (r: Option<SearchResult>)
    ensures r.Some? <==> item.objectType == "page"
    ensures r.Some? ==> r.value.id == item.id && r.value.isNavigable && r.value.score == 1.0
    ensures r.Some? ==> r.value.highlight.text == HighlightTitle(item.properties)
    ensures r.Some? ==> r.value.highlight.pathText != ""
    ensures r.Some? ==> (r.value.highlight.pathText == NoDescription || r.value.highlight.pathText == Description(item.properties))
    ensures r.Some? && Description(item.properties) != "" ==> r.value.highlight.pathText == Description(item.properties)
  {
    if item.objectType == "page" then
      var description := Description(item.properties);
      Some(SearchResult(
        id := item.id,
        isNavigable := true,
        score := 1.0,
        highlight := Highlight(pathText := OrElse(Some(description), NoDescription), text := HighlightTitle(item.properties))))
    else None
  }

  /** `pages.map(ResultFor).filter(Boolean)`. */
  function Results(pages: seq<Item>): (r: seq<SearchResult>)
    ensures |r| <= |pages|
    ensures (forall k :: 0 <= k < |pages| ==> pages[k].objectType == "page") ==>
      |r| == |pages| && forall k :: 0 <= k < |r| ==> Some(r[k]) == ResultFor(pages[k])
  {
    if pages == [] then []
    else
      var head := ResultFor(pages[0]);
      var rest := Results(pages[1..]);
      assert forall k :: 0 < k < |pages| ==> pages[k] == pages[1..][k - 1];
      if head.Some? then [head.value] + rest else rest
  }

  function Normalise(items: seq<Item>): SearchResults {
    var pages := UniquePages(items);
    SearchResults(RecordMap(Blocks(pages)), Results(pages), |pages|)
  }

  /** `searchWithIntegration`: an upstream failure is rethrown unchanged. */
  function SearchWithIntegration(response: Upstream<seq<Item>>): (r: Upstream<SearchResults>)
    ensures response.Threw? ==> r == Threw(response.error)
    ensures response.Returned? ==> r == Returned(Normalise(response.value))
  {
    match response
    case Threw(e) => Threw(e)
    case Returned(items) => Returned(Normalise(items))
  }

  // ---------------------------------------------------------------------------
  // Properties of the normalised result set
  // ---------------------------------------------------------------------------

  /** `results` has one entry per unique page, in the same order, no id twice,
      and `total` counts them. */
  lemma NormaliseResultsSpec(items: seq<Item>)
    ensures var n := Normalise(items);
      && n.total == |n.results| == |UniquePages(items)|
      && (forall k :: 0 <= k < |n.results| ==> n.results[k].id == UniquePages(items)[k].id)
      && (forall a, b :: 0 <= a < b < |n.results| ==> n.results[a].id != n.results[b].id)
      && (forall k :: 0 <= k < |n.results| ==> n.results[k].isNavigable && n.results[k].score == 1.0)
  {
    var pages := UniquePages(items);
    assert forall k :: 0 <= k < |pages| ==> pages[k].objectType == "page" by {
      forall k | 0 <= k < |pages| ensures pages[k].objectType == "page" {
        var f := FindIndex(items, pages[k].id);
        assert Kept(items, f) && items[f] == pages[k];
      }
    }
    var rs := Results(pages);
    assert |rs| == |pages|;
    forall k | 0 <= k < |rs|
      ensures rs[k].id == pages[k].id && rs[k].isNavigable && rs[k].score == 1.0
    {
      assert Some(rs[k]) == ResultFor(pages[k]);
    }
  }

  /** Dropping the last page removes only its id from the set of ids. */
  lemma IdSetSnoc(pages: seq<Item>)
    requires pages != []
    ensures IdSet(pages) == IdSet(pages[..|pages| - 1]) + {pages[|pages| - 1].id}
  {
    var init := pages[..|pages| - 1];
    forall x | x in IdSet(pages) ensures x in IdSet(init) + {pages[|pages| - 1].id} {
      var k :| 0 <= k < |pages| && pages[k].id == x;
      if k < |init| { assert init[k] == pages[k]; }
    }
    forall x | x in IdSet(init) ensures x in IdSet(pages) {
      var k :| 0 <= k < |init| && init[k].id == x;
      assert pages[k] == init[k];
    }
  }

  /** A prefix of pages with distinct ids has distinct ids. */
  lemma DistinctIdsInit(pages: seq<Item>)
    requires pages != [] && DistinctIds(pages)
    ensures DistinctIds(pages[..|pages| - 1])
    ensures pages[|pages| - 1].id !in IdSet(pages[..|pages| - 1])
  {
    var init := pages[..|pages| - 1];
    forall a, b | 0 <= a < b < |init| ensures init[a].id != init[b].id {
      assert init[a] == pages[a] && init[b] == pages[b];
    }
    forall k | 0 <= k < |init| ensures init[k].id != pages[|pages| - 1].id {
      assert init[k] == pages[k];
    }
  }

  /** Distinct ids: as many ids as pages. */
  lemma {:induction false} DistinctIdsCard(pages: seq<Item>)
    requires DistinctIds(pages)
    ensures |IdSet(pages)| == |pages|
  {
    if pages != [] {
      var init := pages[..|pages| - 1];
      DistinctIdsInit(pages);
      DistinctIdsCard(init);
      IdSetSnoc(pages);
    }
  }

  /** `recordMap.block` holds exactly one entry per unique page, keyed by its
      id, so it has `total` entries; each entry is the page's block, with the
      `Name`/`title` title and the `database_id`/`page_id` parent. */
  lemma NormaliseBlocksSpec(items: seq<Item>)
    ensures var n := Normalise(items);
      var pages := UniquePages(items);
      && n.recordMap.block.Keys == IdSet(pages)
      && |n.recordMap.block| == n.total
      && forall k :: 0 <= k < |pages| ==> n.recordMap.block[pages[k].id] == BlockFor(pages[k])
  {
    var pages := UniquePages(items);
    DistinctIdsCard(pages);
    BlocksOfDistinct(pages);
  }

  lemma {:induction false} BlocksOfDistinct(pages: seq<Item>)
    requires DistinctIds(pages)
    ensures forall k :: 0 <= k < |pages| ==> Blocks(pages)[pages[k].id] == BlockFor(pages[k])
  {
    if pages != [] {
      var init := pages[..|pages| - 1];
      var last := pages[|pages| - 1];
      DistinctIdsInit(pages);
      BlocksOfDistinct(init);
      assert Blocks(pages) == Blocks(init)[last.id := BlockFor(last)];
      forall k | 0 <= k < |pages| - 1
        ensures Blocks(pages)[pages[k].id] == BlockFor(pages[k])
      {
        assert init[k] == pages[k];
        assert pages[k].id != last.id;
      }
    }
  }

  /** The two titles use different precedences: with both `Name` and `title`
      present, the record map takes `Name` while the highlight takes `title`. */
  lemma TitlePrecedencesDiffer()
    ensures var props := Some([("Name", Prop(Some(["A"]), None)), ("title", Prop(Some(["B"]), None))]);
      RecordTitle(props) == "A" && HighlightTitle(props) == "B"
  {
    var ps := [("Name", Prop(Some(["A"]), None)), ("title", Prop(Some(["B"]), None))];
    assert Lookup(ps, "title") == Some(Prop(Some(["B"]), None));
    assert FirstPresent(ps, TitleNames) == Some(Prop(Some(["B"]), None));
  }

  /** When the title-named properties give no text (none is present, or the
      first present one is empty) or give the literal `Untitled`, the first
      property's text is the title, whether it is a title or a rich-text
      property. */
  lemma FirstPropertyFallback(props: seq<(string, Prop)>, text: string)
    requires var named := PropText(FirstPresent(props, TitleNames)); named.None? || named.value == Untitled
    requires |props| > 0 && PropText(Some(props[0].1)) == Some(text)
    ensures HighlightTitle(Some(props)) == text
  {
    HighlightFallback(props);
  }

  /** The highlight title when the named title gives nothing or `Untitled`. */
  lemma HighlightFallback(props: seq<(string, Prop)>)
    requires var named := PropText(FirstPresent(props, TitleNames)); named.None? || named.value == Untitled
    ensures HighlightTitle(Some(props)) == OrElse(FirstPropertyText(props), Untitled)
  {
  }

  /** Having none of the four title names is one way to give no text. */
  lemma NoNamedTitle(props: seq<(string, Prop)>)
    requires forall n :: n in TitleNames ==> Lookup(props, n).None?
    ensures PropText(FirstPresent(props, TitleNames)).None?
  {
  }

  /** A page whose id first appears on a non-page item (a database, say) is
      dropped, although it is the only page with that id. */
  lemma EarlierNonPageHidesPage()
    ensures var items := [Item("database", "x", None, None), Item("page", "x", None, None)];
      UniquePages(items) == []
  {
    var items := [Item("database", "x", None, None), Item("page", "x", None, None)];
    assert FindIndex(items, "x") == 0;
    assert !Kept(items, 1);
  }
}

=== FILE: notion_page.dfy ===
/**
 The deterministic logic of the page component: which block is the page,
 whether it is a blog post with a table of contents, the effective header
 height, what a click on a table-of-contents entry does, and the small
 rendering overrides handed to the renderer.
 */
module NotionPage {
  import opened Js
  import opened PageDom

  // ---------------------------------------------------------------------------
  // The page block and the table of contents
  // ---------------------------------------------------------------------------

  /** The fields of a block the page reads; `language` is
      `properties?.language?.[0]?.[0]`. */
  datatype Block = Block(id: string, kind: string, parentTable: string, language: Option<string>)

  /** `recordMap.block` as its entries in key order; an entry's `value` may
      be missing. */
  datatype PageRecordMap = PageRecordMap(blocks: seq<(string, Option<Block>)>)

  /** `Object.keys(recordMap?.block || {})[0]`. */
  function FirstKey(recordMap: Option<PageRecordMap>): (k: Option<string>)
    ensures k.Some? <==> recordMap.Some? && |recordMap.value.blocks| > 0
    ensures k.Some? ==> k.value == recordMap.value.blocks[0].0
  {
    if recordMap.Some? && |recordMap.value.blocks| > 0 then Some(recordMap.value.blocks[0].0) else None
  }

  /** `recordMap?.block?.[keys[0]]?.value`: the value of the first entry. */
  function PageBlockOf(recordMap: Option<PageRecordMap>): (b: Option<Block>)
    ensures recordMap.None? || recordMap.value.blocks == [] ==> b.None?
    ensures recordMap.Some? && recordMap.value.blocks != [] ==> b == recordMap.value.blocks[0].1
  {
    if recordMap.Some? && |recordMap.value.blocks| > 0 then recordMap.value.blocks[0].1 else None
  }

  /** A page whose parent is a collection (a database row) is a blog post. */
  predicate IsBlogPost(block: Option<Block>) {
    block.Some? && block.value.kind == "page" && block.value.parentTable == "collection"
  }

  const MinTableOfContentsItems := 3

  datatype TocItem = TocItem(id: string, text: string, indentLevel: int)

  /** What `getPageTableOfContents` did: returned entries, or threw. */
  datatype TocBuild = Built(items: seq<TocItem>) | BuildThrew

  /** The memoised table of contents: empty without a block or record map,
      and empty when the builder throws. */
  function TableOfContents(block: Option<Block>, recordMapPresent: bool, build: TocBuild): (toc: seq<TocItem>)
    ensures block.None? || !recordMapPresent || build.BuildThrew? ==> toc == []
    ensures block.Some? && recordMapPresent && build.Built? ==> toc == build.items
  {
    if block.None? || !recordMapPresent then []
    else
      match build
      case Built(items) => items
      case BuildThrew => []
  }

  /** `showTableOfContents && tableOfContents.length >= minTableOfContentsItems`. */
  predicate HasToc(block: Option<Block>, toc: seq<TocItem>) {
    IsBlogPost(block) && |toc| >= MinTableOfContentsItems
  }

  /** The pane is shown iff the page is a blog post whose builder returned at
      least three entries; in particular never when the builder threw or the
      page is not a collection row. */
  lemma TocShownIff(recordMap: Option<PageRecordMap>, build: TocBuild)
    ensures var block := PageBlockOf(recordMap);
      HasToc(block, TableOfContents(block, recordMap.Some?, build)) <==>
        && recordMap.Some? && recordMap.value.blocks != []
        && recordMap.value.blocks[0].1.Some?
        && recordMap.value.blocks[0].1.value.kind == "page"
        && recordMap.value.blocks[0].1.value.parentTable == "collection"
        && build.Built? && |build.items| >= 3
  {
  }

  // ---------------------------------------------------------------------------
  // Header height and TOC clicks
  // ---------------------------------------------------------------------------

  /** `el?.offsetHeight || 0`. */
  function OffsetOrZero(h: Option<nat>): nat {
    if h.Some? then h.value else 0
  }

  /** `getHeaderHeight`: the largest of the `--notion-header-height`
      variable (read with `parseInt`, 0 when blank), the main header's
      height and the nav header's height (each 0 when absent). A variable
      that does not start with a number makes the result `NaN`. */
  function HeaderHeight(cssVar: string, mainHeader: Option<nat>, navHeader: Option<nat>): (h: Num)
    ensures Trim(cssVar) == "" ==> h == Finite(if OffsetOrZero(mainHeader) >= OffsetOrZero(navHeader) then OffsetOrZero(mainHeader) else OffsetOrZero(navHeader))
    ensures h.NaN? <==> Trim(cssVar) != "" && ParseInt(Trim(cssVar)).NaN?
    ensures h.Finite? ==> h.v >= OffsetOrZero(mainHeader) && h.v >= OffsetOrZero(navHeader) && h.v >= 0
    ensures h.Finite? && Trim(cssVar) != "" ==> h.v >= ParseInt(Trim(cssVar)).v
    ensures h.Finite? ==>
      var css := if Trim(cssVar) == "" then 0 else ParseInt(Trim(cssVar)).v;
      h.v == css || h.v == OffsetOrZero(mainHeader) || h.v == OffsetOrZero(navHeader)
  {
    var v := Trim(cssVar);
    var css := if v != "" then ParseInt(v) else Finite(0);
    Max3(css, Finite(OffsetOrZero(mainHeader)), Finite(OffsetOrZero(navHeader)))
  }

  /** A variable written as `<n>px` counts as `n` pixels. */
  lemma HeaderHeightOfPixels(n: nat, mainHeader: Option<nat>, navHeader: Option<nat>)
    ensures var h := HeaderHeight(ShowNat(n) + "px", mainHeader, navHeader);
      h.Finite? && h.v >= n && (h.v == n || h.v == OffsetOrZero(mainHeader) || h.v == OffsetOrZero(navHeader))
  {
    var s := ShowNat(n) + "px";
    assert s[0] == ShowNat(n)[0] && IsDigit(s[0]);
    assert s[|s| - 1] == 'x';
    TrimOfTrimmed(s);
    ParseIntShow(n, "px");
    assert HeaderHeight(s, mainHeader, navHeader) == Max3(Finite(n), Finite(OffsetOrZero(mainHeader)), Finite(OffsetOrZero(navHeader)));
  }

  /** `document.getElementById(id) || document.querySelector('[data-id="id"]')`. */
  function ResolveTarget(dom: Dom, id: string): (r: Option<nat>)
    ensures r.Some? ==> r.value < |dom|
    ensures GetElementById(dom, id).Some? ==> r == GetElementById(dom, id)
    ensures GetElementById(dom, id).None? ==> r == QueryDataId(Nodes(dom), id)
  {
    var byId := GetElementById(dom, id);
    if byId.Some? then byId else QueryDataId(Nodes(dom), id)
  }

  const ScrollPadding := 8

  /** What a click on a TOC entry does besides `preventDefault`: nothing, or
      a smooth scroll to `top` and `history.replaceState` to `hash`. `top` is
      the argument passed to `window.scrollTo`; the browser reads a `NaN`
      argument as 0, which scrolls to the top of the page. */
  datatype TocClick = NoTarget | Jump(target: nat, top: Num, hash: string)

  /** `handleTocItemClick(event, id)`. */
  function OnTocItemClick(dom: Dom, id: string, scrollY: int, headerHeight: Num): (c: TocClick)
    ensures ResolveTarget(dom, id).None? <==> c == NoTarget
    ensures c.Jump? ==> c.target == ResolveTarget(dom, id).value && c.hash == "#" + id
    ensures c.Jump? && headerHeight.Finite? ==>
      c.top == Finite(dom[c.target].node.rectTop + scrollY - headerHeight.v - ScrollPadding)
    ensures c.Jump? && headerHeight.NaN? ==> c.top.NaN?
  {
    match ResolveTarget(dom, id)
    case None => NoTarget
    case Some(t) =>
      var top := match headerHeight
        case Finite(h) => Finite(dom[t].node.rectTop + scrollY - h - ScrollPadding)
        case NaN => NaN;
      Jump(t, top, "#" + id)
  }

  /** The scroll target is the element's position in the document less the
      header and the padding: it does not depend on how far the window was
      already scrolled, since the element's viewport top moves with it. */
  lemma ClickTargetIndependentOfScroll(
    dom1: Dom, dom2: Dom, id: string, docTop: int, y1: int, y2: int, h: nat)
    requires |dom1| == |dom2|
    requires forall i :: 0 <= i < |dom1| ==> dom1[i].anchor == dom2[i].anchor
    requires forall i :: 0 <= i < |dom1| ==> dom1[i].node.(rectTop := 0) == dom2[i].node.(rectTop := 0)
    requires OnTocItemClick(dom1, id, y1, Finite(h)).Jump?
    requires dom1[OnTocItemClick(dom1, id, y1, Finite(h)).target].node.rectTop == docTop - y1
    requires dom2[OnTocItemClick(dom1, id, y1, Finite(h)).target].node.rectTop == docTop - y2
    ensures OnTocItemClick(dom2, id, y2, Finite(h)) == OnTocItemClick(dom1, id, y1, Finite(h))
    ensures OnTocItemClick(dom1, id, y1, Finite(h)).top == Finite(docTop - h - ScrollPadding)
  {
    var n1 := Nodes(dom1);
    var n2 := Nodes(dom2);
    assert GetElementById(dom1, id) == GetElementById(dom2, id) by {
      if id != "" {
        var p1 := (e: Element) => e.anchor.id == Some(id);
        assert forall i :: 0 <= i < |dom1| ==> p1(dom1[i]) == p1(dom2[i]);
        FirstWhereAgree(dom1, dom2, p1, p1, 0);
      }
    }
    assert QueryDataId(n1, id) == QueryDataId(n2, id) by {
      var q := (n: Node) => n.dataId == Some(id);
      assert forall i :: 0 <= i < |n1| ==> q(n1[i]) == q(n2[i]) by {
        forall i | 0 <= i < |n1| ensures q(n1[i]) == q(n2[i]) {
          assert n1[i].(rectTop := 0) == n2[i].(rectTop := 0);
        }
      }
      FirstWhereAgree(n1, n2, q, q, 0);
    }
  }

  /** Two sequences on which two predicates agree pointwise give the same
      first match. */
  lemma {:induction false} FirstWhereAgree<T>(s1: seq<T>, s2: seq<T>, p1: T -> bool, p2: T -> bool, from: nat)
    requires |s1| == |s2| && from <= |s1|
    requires forall i :: from <= i < |s1| ==> p1(s1[i]) == p2(s2[i])
    ensures FirstWhere(s1, p1, from) == FirstWhere(s2, p2, from)
    decreases |s1| - from
  {
    if from < |s1| && !p1(s1[from]) {
      FirstWhereAgree(s1, s2, p1, p2, from + 1);
    }
  }

  // ---------------------------------------------------------------------------
  // Rendering overrides
  // ---------------------------------------------------------------------------

  datatype BlockRendering = HiddenBlock | RenderChildren

  /** `CustomBlock`: on the index page (`asPath` `'/'` or `''`) the first
      block of the record map and every callout or divider are hidden;
      everything else renders its children. `blockId` and the first key are
      compared as JavaScript values, so two missing values are equal. */
  function CustomBlock(asPath: string, recordMap: Option<PageRecordMap>, blockId: Option<string>, block: Option<Block>): (r: BlockRendering)
    ensures asPath != "/" && asPath != "" ==> r == RenderChildren
    ensures block.Some? && (block.value.kind == "callout" || block.value.kind == "divider") && (asPath == "/" || asPath == "") ==> r == HiddenBlock
    ensures r == HiddenBlock <==>
      && (asPath == "/" || asPath == "")
      && (|| (blockId.Some? && recordMap.Some? && recordMap.value.blocks != [] && blockId.value == recordMap.value.blocks[0].0)
          || (blockId.None? && (recordMap.None? || recordMap.value.blocks == []))
          || (block.Some? && (block.value.kind == "callout" || block.value.kind == "divider")))
  {
    var isIndexPage := asPath == "/" || asPath == "";
    var isFirstBlock := blockId == FirstKey(recordMap);
    var kind := if block.Some? then Some(block.value.kind) else None;
    if isIndexPage && (isFirstBlock || kind == Some("callout") || kind == Some("divider")) then HiddenBlock
    else RenderChildren
  }

  /** On the index page exactly the first block, callouts and dividers are
      hidden: an ordinary block that is not first renders. */
  lemma CustomBlockHidesOnlyBanner(recordMap: Option<PageRecordMap>, blockId: string, block: Block)
    requires block.kind != "callout" && block.kind != "divider"
    ensures CustomBlock("/", recordMap, Some(blockId), Some(block)) == HiddenBlock <==>
      recordMap.Some? && recordMap.value.blocks != [] && recordMap.value.blocks[0].0 == blockId
  {
  }

  datatype CodeRenderer = MermaidRenderer | NotionCodeRenderer

  /** `CustomCode`: only the exact languages `Mermaid` and `mermaid` go to
      the diagram renderer. */
  function CustomCode(block: Block): (r: CodeRenderer)
    ensures r == MermaidRenderer <==> block.language == Some("Mermaid") || block.language == Some("mermaid")
  {
    var language := block.language;
    if language == Some("Mermaid") || language == Some("mermaid") then MermaidRenderer else NotionCodeRenderer
  }

  lemma CustomCodeCaseSensitive(b: Block)
    requires b.language == Some("MERMAID")
    ensures CustomCode(b) == NotionCodeRenderer
  {
  }

  datatype PropertyRendering = HiddenProperty | BoldDefault | PlainDefault

  /** `schemaName` equals `target` up to the case of ASCII letters. */
  predicate CaseInsensitiveEq(schemaName: string, target: string) {
    |schemaName| == |target| && forall i :: 0 <= i < |target| ==> LowerChar(schemaName[i]) == LowerChar(target[i])
  }

  /** `propertyTextValue`: an `ImageURLs` property (in any letter case) is
      not shown; an `Author` property in the page header is shown bold;
      everything else renders by default. */
  function PropertyTextValue(schemaName: Option<string>, pageHeader: bool): (r: PropertyRendering)
    ensures r == HiddenProperty <==> schemaName.Some? && CaseInsensitiveEq(schemaName.value, "ImageURLs")
    ensures r == BoldDefault <==> pageHeader && schemaName.Some? && CaseInsensitiveEq(schemaName.value, "Author")
  {
    var lower := if schemaName.Some? then Some(ToLower(schemaName.value)) else None;
    LowerMatches(schemaName, "ImageURLs", "imageurls");
    LowerMatches(schemaName, "Author", "author");
    if lower == Some("imageurls") then HiddenProperty
    else if pageHeader && lower == Some("author") then BoldDefault
    else PlainDefault
  }

  lemma LowerMatches(schemaName: Option<string>, target: string, lowered: string)
    requires lowered == ToLower(target)
    ensures schemaName.Some? ==> (ToLower(schemaName.value) == lowered <==> CaseInsensitiveEq(schemaName.value, target))
  {
    if schemaName.Some? {
      var s := schemaName.value;
      if CaseInsensitiveEq(s, target) {
        assert ToLower(s) == lowered;
      }
      if ToLower(s) == lowered {
        assert |s| == |target|;
      }
    }
  }
}

=== FILE: page_dom.dfy ===
/**
 An abstract rendered document: a sequence of elements in document order.
 Each element has a read-only part the page's lookups inspect (data
 attributes, heading classes, text, parent, position) and an anchor part
 (`id` and `style.scrollMarginTop`) that the anchor pass may write.
 */
module PageDom {
  import opened Js

  /** The read-only part of an element. `isHeadingTitle` means the element
      matches `.notion-page .notion-h-title`; `isHeadingContainer` means it
      matches `.notion-h, .notion-h1, .notion-h2, .notion-h3`; `parent` is
      the index of `parentElement`; `rectTop` is
      `getBoundingClientRect().top` in whole pixels. */
  datatype Node = Node(
    dataId: Option<string>,
    dataBlockId: Option<string>,
    isHeadingTitle: bool,
    isHeadingContainer: bool,
    text: string,
    parent: Option<nat>,
    rectTop: int)

  /** The writable part of an element. */
  datatype Anchor = Anchor(id: Option<string>, scrollMarginTop: Option<int>)

  datatype Element = Element(node: Node, anchor: Anchor)

  type Dom = seq<Element>

  /** In document order a parent precedes its children. */
  predicate WellFormed(nodes: seq<Node>) {
    forall i :: 0 <= i < |nodes| && nodes[i].parent.Some? ==> nodes[i].parent.value < i
  }

  function Nodes(dom: Dom): (ns: seq<Node>)
    ensures |ns| == |dom| && forall i :: 0 <= i < |dom| ==> ns[i] == dom[i].node
  {
    seq(|dom|, i requires 0 <= i < |dom| => dom[i].node)
  }

  /** The first index at or after `from` whose element satisfies `p`. */
  function FirstWhere<T>(s: seq<T>, p: T -> bool, from: nat): (r: Option<nat>)
    requires from <= |s|
    ensures r.Some? ==> from <= r.value < |s| && p(s[r.value])
    ensures r.Some? ==> forall k :: from <= k < r.value ==> !p(s[k])
    ensures r.None? ==> forall k :: from <= k < |s| ==> !p(s[k])
    decreases |s| - from
  {
    if from == |s| then None
    else if p(s[from]) then Some(from)
    else FirstWhere(s, p, from + 1)
  }

  /** `document.getElementById(id)`: the first element carrying that id;
      nothing for the empty id. */
  function GetElementById(dom: Dom, id: string): (r: Option<nat>)
    ensures r.Some? ==> r.value < |dom| && dom[r.value].anchor.id == Some(id) && id != ""
    ensures r.Some? ==> forall k :: 0 <= k < r.value ==> dom[k].anchor.id != Some(id)
    ensures r.None? ==> id == "" || forall k :: 0 <= k < |dom| ==> dom[k].anchor.id != Some(id)
  {
    if id == "" then None else FirstWhere(dom, (e: Element) => e.anchor.id == Some(id), 0)
  }

  /** `document.querySelector('[data-id="' + id + '"]')`. */
  function QueryDataId(nodes: seq<Node>, id: string): (r: Option<nat>)
    ensures r.Some? ==> r.value < |nodes| && nodes[r.value].dataId == Some(id)
    ensures r.Some? ==> forall k :: 0 <= k < r.value ==> nodes[k].dataId != Some(id)
    ensures r.None? ==> forall k :: 0 <= k < |nodes| ==> nodes[k].dataId != Some(id)
  {
    FirstWhere(nodes, (n: Node) => n.dataId == Some(id), 0)
  }

  /** `document.querySelector('[data-block-id="' + id + '"]')`. */
  function QueryDataBlockId(nodes: seq<Node>, id: string): (r: Option<nat>)
    ensures r.Some? ==> r.value < |nodes| && nodes[r.value].dataBlockId == Some(id)
    ensures r.Some? ==> forall k :: 0 <= k < r.value ==> nodes[k].dataBlockId != Some(id)
    ensures r.None? ==> forall k :: 0 <= k < |nodes| ==> nodes[k].dataBlockId != Some(id)
  {
    FirstWhere(nodes, (n: Node) => n.dataBlockId == Some(id), 0)
  }

  /** The first heading title whose trimmed text equals the trimmed `text`. */
  function FindHeadingTitle(nodes: seq<Node>, text: string): (r: Option<nat>)
    ensures r.Some? ==> r.value < |nodes| && nodes[r.value].isHeadingTitle && Trim(nodes[r.value].text) == Trim(text)
    ensures r.Some? ==> forall k :: 0 <= k < r.value ==> !(nodes[k].isHeadingTitle && Trim(nodes[k].text) == Trim(text))
    ensures r.None? ==> forall k :: 0 <= k < |nodes| ==> !(nodes[k].isHeadingTitle && Trim(nodes[k].text) == Trim(text))
  {
    FirstWhere(nodes, (n: Node) => n.isHeadingTitle && Trim(n.text) == Trim(text), 0)
  }

  /** `el.parentElement`; a link that does not point backwards in document
      order is not followed. */
  function ParentOf(nodes: seq<Node>, i: nat): (r: Option<nat>)
    requires i < |nodes|
    ensures r.Some? ==> r.value < i && nodes[i].parent == Some(r.value)
    ensures WellFormed(nodes) ==> r == nodes[i].parent
  {
    match nodes[i].parent
    case Some(p) => if p < i then Some(p) else None
    case None => None
  }

  /** `a` is `i` or reached from `i` by following parent links. */
  predicate AncestorOrSelf(nodes: seq<Node>, i: nat, a: nat)
    requires i < |nodes|
    decreases i
  {
    a == i || (ParentOf(nodes, i).Some? && AncestorOrSelf(nodes, ParentOf(nodes, i).value, a))
  }

  /** Ancestors come no later than the element in document order. */
  lemma {:induction false} AncestorBefore(nodes: seq<Node>, i: nat, a: nat)
    requires i < |nodes| && AncestorOrSelf(nodes, i, a)
    ensures a <= i
    decreases i
  {
    if a != i {
      AncestorBefore(nodes, ParentOf(nodes, i).value, a);
    }
  }

  /** `el.closest('.notion-h, .notion-h1, .notion-h2, .notion-h3')`: the
      element itself or its nearest ancestor that is a heading container;
      none when no element on the parent chain is one. */
  function Closest(nodes: seq<Node>, i: nat): (r: Option<nat>)
    requires i < |nodes|
    ensures r.Some? ==> r.value <= i && nodes[r.value].isHeadingContainer && AncestorOrSelf(nodes, i, r.value)
    ensures r.Some? ==> forall a: nat :: r.value < a <= i && AncestorOrSelf(nodes, i, a) ==> !nodes[a].isHeadingContainer
    ensures r.None? ==> forall a: nat :: a <= i && AncestorOrSelf(nodes, i, a) ==> !nodes[a].isHeadingContainer
    ensures nodes[i].isHeadingContainer ==> r == Some(i)
    decreases i
  {
    if nodes[i].isHeadingContainer then Some(i)
    else
      match ParentOf(nodes, i)
      case Some(p) =>
        var r := Closest(nodes, p);
        assert forall a: nat :: a <= i && AncestorOrSelf(nodes, i, a) && a != i ==> AncestorOrSelf(nodes, p, a) && a <= p by {
          forall a: nat | a <= i && AncestorOrSelf(nodes, i, a) && a != i ensures AncestorOrSelf(nodes, p, a) && a <= p {
            AncestorBefore(nodes, p, a);
          }
        }
        r
      case None => None
  }
}

=== FILE: page_head.dfy ===
/**
 The page's `<head>`: the list of image URLs read from a page's `ImageURLs`
 property, and the fallbacks that choose the title, the description, the
 social image, the Twitter card and the structured-data image.
 */
module PageHead {
  import opened Js

  // ---------------------------------------------------------------------------
  // getImageUrls
  // ---------------------------------------------------------------------------

  /** What `getPageProperty('ImageURLs', block, recordMap)` did: it threw, or
      it returned the property's text (absent when the page has none). */
  datatype PropLookup = LookupThrew | PropValue(text: Option<string>)

  const UrlSeparator := ','

  /** The filter `url && url.startsWith('http')`. */
  predicate KeepUrl(url: string) {
    url != "" && StartsWith(url, "http")
  }

  /** What one part contributes: its trimmed text, if that is kept. */
  function Kept(part: string): seq<string> {
    var u := Trim(part);
    if KeepUrl(u) then [u] else []
  }

  /** `parts.map(url => url.trim()).filter(url => url && url.startsWith('http'))`. */
  function CleanUrls(parts: seq<string>): seq<string>
    decreases |parts|
  {
    if parts == [] then [] else Kept(parts[0]) + CleanUrls(parts[1..])
  }

  /** A string is among the cleaned URLs iff it is an http URL that some
      part trims to. */
  lemma {:induction false} CleanUrlsMembers(parts: seq<string>, u: string)
    ensures u in CleanUrls(parts) <==> KeepUrl(u) && exists k :: 0 <= k < |parts| && Trim(parts[k]) == u
    decreases |parts|
  {
    if parts != [] {
      var tail := parts[1..];
      CleanUrlsMembers(tail, u);
      assert u in CleanUrls(parts) <==> u in Kept(parts[0]) || u in CleanUrls(tail);
      assert u in Kept(parts[0]) <==> KeepUrl(u) && Trim(parts[0]) == u;
      if exists k :: 0 <= k < |tail| && Trim(tail[k]) == u {
        var k :| 0 <= k < |tail| && Trim(tail[k]) == u;
        assert Trim(parts[k + 1]) == u;
      }
      if exists k :: 0 <= k < |parts| && Trim(parts[k]) == u {
        var k :| 0 <= k < |parts| && Trim(parts[k]) == u;
        if k > 0 {
          assert Trim(tail[k - 1]) == u;
        }
      }
    }
  }

  lemma KeptShape(part: string)
    ensures |Kept(part)| <= 1
    ensures Kept(part) != [] ==> KeepUrl(Kept(part)[0]) && IsTrimmed(Kept(part)[0])
  {
  }

  /** Every cleaned URL is a trimmed http URL, and there are no more of them
      than parts. */
  lemma {:induction false} CleanUrlsShape(parts: seq<string>)
    ensures |CleanUrls(parts)| <= |parts|
    ensures forall i :: 0 <= i < |CleanUrls(parts)| ==> KeepUrl(CleanUrls(parts)[i]) && IsTrimmed(CleanUrls(parts)[i])
    decreases |parts|
  {
    if parts != [] {
      CleanUrlsShape(parts[1..]);
      var head := Kept(parts[0]);
      var rest := CleanUrls(parts[1..]);
      var all := CleanUrls(parts);
      assert all == head + rest;
      KeptShape(parts[0]);
      CleanConcat(head, rest);
    }
  }

  /** A trimmed http URL, as every cleaned entry is. */
  predicate CleanUrl(u: string) {
    KeepUrl(u) && IsTrimmed(u)
  }

  lemma CleanConcat(a: seq<string>, b: seq<string>)
    requires forall i :: 0 <= i < |a| ==> CleanUrl(a[i])
    requires forall i :: 0 <= i < |b| ==> CleanUrl(b[i])
    ensures forall i :: 0 <= i < |a + b| ==> CleanUrl((a + b)[i])
  {
  }

  /** `s.flatMap(f)`: the pieces `f` gives for each element, in order. */
  function ConcatMap<T, U>(f: T -> seq<U>, s: seq<T>): seq<U>
    decreases |s|
  {
    if s == [] then [] else f(s[0]) + ConcatMap(f, s[1..])
  }

  lemma {:induction false} ConcatMapAppend<T, U>(f: T -> seq<U>, a: seq<T>, b: seq<T>)
    ensures ConcatMap(f, a + b) == ConcatMap(f, a) + ConcatMap(f, b)
    decreases |a|
  {
    if a == [] {
      assert a + b == b;
    } else {
      calc {
        ConcatMap(f, a + b);
        { assert (a + b)[0] == a[0] && (a + b)[1..] == a[1..] + b; }
        f(a[0]) + ConcatMap(f, a[1..] + b);
        { ConcatMapAppend(f, a[1..], b); }
        f(a[0]) + (ConcatMap(f, a[1..]) + ConcatMap(f, b));
        (f(a[0]) + ConcatMap(f, a[1..])) + ConcatMap(f, b);
      }
    }
  }

  /** The clean-up is the flat map of what each part contributes. */
  lemma {:induction false} CleanUrlsIsConcatMap(parts: seq<string>)
    ensures CleanUrls(parts) == ConcatMap(Kept, parts)
    decreases |parts|
  {
    if parts != [] {
      CleanUrlsIsConcatMap(parts[1..]);
    }
  }

  /** The clean-up works part by part, keeping the order of the parts. */
  lemma CleanUrlsAppend(a: seq<string>, b: seq<string>)
    ensures CleanUrls(a + b) == CleanUrls(a) + CleanUrls(b)
  {
    CleanUrlsIsConcatMap(a + b);
    CleanUrlsIsConcatMap(a);
    CleanUrlsIsConcatMap(b);
    ConcatMapAppend(Kept, a, b);
  }

  /** A single part contributes its trimmed text iff that is an http URL. */
  lemma CleanUrlsSingle(p: string)
    ensures CleanUrls([p]) == if KeepUrl(Trim(p)) then [Trim(p)] else []
  {
    assert [p][1..] == [];
  }

  /** `getImageUrls(block, recordMap)`: nothing when the lookup throws or the
      property is missing or empty; otherwise the comma-separated parts,
      trimmed, keeping those that start with `http`. */
  function GetImageUrls(lookup: PropLookup): (urls: seq<string>)
    ensures lookup.LookupThrew? || !Truthy(lookup.text) ==> urls == []
    ensures lookup.PropValue? && Truthy(lookup.text) ==> urls == CleanUrls(Split(lookup.text.value, UrlSeparator))
    ensures forall i :: 0 <= i < |urls| ==> KeepUrl(urls[i]) && IsTrimmed(urls[i]) && UrlSeparator !in urls[i]
  {
    match lookup
    case LookupThrew => []
    case PropValue(text) =>
      if !Truthy(text) then []
      else
        var parts := Split(text.value, UrlSeparator);
        var urls := CleanUrls(parts);
        CleanUrlsShape(parts);
        assert forall i :: 0 <= i < |urls| ==> UrlSeparator !in urls[i] by {
          forall i | 0 <= i < |urls| ensures UrlSeparator !in urls[i] {
            CleanUrlsMembers(parts, urls[i]);
            var k :| 0 <= k < |parts| && Trim(parts[k]) == urls[i];
            TrimInfix(parts[k]);
          }
        }
        urls
  }

  /** Parts that each trim to an http URL are all kept, in order. */
  lemma {:induction false} CleanUrlsKeepsAll(parts: seq<string>, urls: seq<string>)
    requires |parts| == |urls|
    requires forall i :: 0 <= i < |parts| ==> Trim(parts[i]) == urls[i] && KeepUrl(urls[i])
    ensures CleanUrls(parts) == urls
    decreases |parts|
  {
    if parts != [] {
      var tail, rest := parts[1..], urls[1..];
      CleanUrlsKeepsAll(tail, rest);
      KeptUrl(parts[0], urls[0]);
      assert urls == [urls[0]] + rest;
    }
  }

  lemma KeptUrl(part: string, url: string)
    requires Trim(part) == url && KeepUrl(url)
    ensures Kept(part) == [url]
  {
  }

  /** Reading back a list: separator-free parts, each an http URL with any
      amount of white space around it, joined with commas, give exactly
      those URLs in that order. */
  lemma ReadsJoinedUrls(parts: seq<string>, urls: seq<string>)
    requires |parts| == |urls| >= 1
    requires forall i :: 0 <= i < |parts| ==> UrlSeparator !in parts[i]
    requires forall i :: 0 <= i < |parts| ==> Trim(parts[i]) == urls[i] && KeepUrl(urls[i])
    ensures GetImageUrls(PropValue(Some(Join(parts, UrlSeparator)))) == urls
  {
    var text := Join(parts, UrlSeparator);
    assert |parts[0]| >= |urls[0]| > 0;
    assert |text| >= |parts[0]|;
    assert Truthy(Some(text));
    SplitJoin(parts, UrlSeparator);
    assert GetImageUrls(PropValue(Some(text))) == CleanUrls(parts);
    CleanUrlsKeepsAll(parts, urls);
  }

  /** The parts of `"url1, url2, …"` between the commas: each URL after the
      first has a blank in front. */
  function Spaced(urls: seq<string>): (parts: seq<string>)
    ensures |parts| == |urls|
    ensures |urls| > 0 ==> parts[0] == urls[0]
    ensures forall i :: 0 < i < |urls| ==> parts[i] == " " + urls[i]
  {
    seq(|urls|, i requires 0 <= i < |urls| => if i == 0 then urls[0] else " " + urls[i])
  }

  /** The usual way the property is typed, `"url1, url2, …"`, reads back as
      the URLs themselves. */
  lemma ReadsCommaSpaceList(urls: seq<string>)
    requires |urls| >= 1
    requires forall i :: 0 <= i < |urls| ==> KeepUrl(urls[i]) && IsTrimmed(urls[i]) && UrlSeparator !in urls[i]
    ensures GetImageUrls(PropValue(Some(Join(Spaced(urls), UrlSeparator)))) == urls
  {
    var parts := Spaced(urls);
    forall i | 0 <= i < |parts| ensures UrlSeparator !in parts[i] && Trim(parts[i]) == urls[i] {
      if i == 0 {
        TrimOfTrimmed(urls[0]);
      } else {
        SpacedUrl(urls[i]);
      }
    }
    ReadsJoinedUrls(parts, urls);
  }

  /** One blank after the comma is trimmed away. */
  lemma SpacedUrl(u: string)
    requires u != [] && IsTrimmed(u) && UrlSeparator !in u
    ensures UrlSeparator !in " " + u && Trim(" " + u) == u
  {
    TrimPadded(" ", u, "");
    assert " " + u + "" == " " + u;
  }

  // ---------------------------------------------------------------------------
  // The head's fallbacks
  // ---------------------------------------------------------------------------

  datatype Site = Site(name: Option<string>, description: Option<string>)

  /** The props of `PageHead` that the fallbacks read, with the two foreign
      calls as their answers: `generatedSocialImage` is
      `getSocialImageUrl(pageId)`, `imageUrlsLookup` what the property lookup
      does. */
  datatype HeadInput = HeadInput(
    site: Option<Site>,
    title: Option<string>,
    description: Option<string>,
    image: Option<string>,
    isBlogPost: bool,
    hasBlock: bool,
    hasRecordMap: bool,
    generatedSocialImage: Option<string>,
    imageUrlsLookup: PropLookup)

  datatype TwitterCard = Summary | SummaryLargeImage

  /** The JSON-LD fields that depend on the page; `image` is the optional
      key spread in only when the schema images are defined. */
  datatype JsonLd = JsonLd(headline: Option<string>, description: Option<string>, image: Option<seq<string>>)

  /** The chosen values and which conditional tags are rendered. */
  datatype Head = Head(
    title: Option<string>,
    description: Option<string>,
    descriptionMeta: bool,
    socialImageUrl: Option<string>,
    twitterCard: TwitterCard,
    imageMeta: Option<string>,
    schemaImages: Option<seq<string>>,
    jsonLd: Option<JsonLd>)

  function SiteName(site: Option<Site>): Option<string> {
    if site.Some? then site.value.name else None
  }

  function SiteDescription(site: Option<Site>): Option<string> {
    if site.Some? then site.value.description else None
  }

  /** `title ?? site?.name`: a given title is kept even when it is empty. */
  function ResolveTitle(title: Option<string>, site: Option<Site>): (t: Option<string>)
    ensures title.Some? ==> t == title
    ensures title.None? ==> t == SiteName(site)
  {
    Coalesce(title, SiteName(site))
  }

  /** `description ?? site?.description`. */
  function ResolveDescription(description: Option<string>, site: Option<Site>): (d: Option<string>)
    ensures description.Some? ==> d == description
    ensures description.None? ==> d == SiteDescription(site)
  {
    Coalesce(description, SiteDescription(site))
  }

  /** `getSocialImageUrl(pageId) || image`. */
  function SocialImageUrl(generated: Option<string>, image: Option<string>): (u: Option<string>)
    ensures Truthy(generated) ==> u == generated
    ensures !Truthy(generated) ==> u == image
  {
    Or(generated, image)
  }

  /** The property's URLs when there are any, else the social image alone
      when it is set, else nothing. */
  function SchemaImages(imageUrls: seq<string>, social: Option<string>): (s: Option<seq<string>>)
    ensures imageUrls != [] ==> s == Some(imageUrls)
    ensures imageUrls == [] && Truthy(social) ==> s == Some([social.value])
    ensures s.None? <==> imageUrls == [] && !Truthy(social)
    ensures s.Some? ==> s.value != []
  {
    if |imageUrls| > 0 then Some(imageUrls)
    else if Truthy(social) then Some([social.value])
    else None
  }

  /** The large card iff there is a social image. */
  function TwitterCardFor(social: Option<string>): (c: TwitterCard)
    ensures c == SummaryLargeImage <==> Truthy(social)
  {
    if Truthy(social) then SummaryLargeImage else Summary
  }

  /** `PageHead`'s choices. */
  function BuildHead(input: HeadInput): (h: Head)
    ensures h.title == ResolveTitle(input.title, input.site)
    ensures h.description == ResolveDescription(input.description, input.site)
    ensures h.descriptionMeta <==> Truthy(h.description)
    ensures h.socialImageUrl == SocialImageUrl(input.generatedSocialImage, input.image)
    ensures h.twitterCard == TwitterCardFor(h.socialImageUrl)
    ensures h.imageMeta.Some? <==> Truthy(h.socialImageUrl)
    ensures h.imageMeta.Some? ==> h.imageMeta == h.socialImageUrl
    ensures !(input.hasBlock && input.hasRecordMap) ==> h.schemaImages == SchemaImages([], h.socialImageUrl)
    ensures input.hasBlock && input.hasRecordMap ==>
      h.schemaImages == SchemaImages(GetImageUrls(input.imageUrlsLookup), h.socialImageUrl)
    ensures h.jsonLd.Some? <==> input.isBlogPost
    ensures h.jsonLd.Some? ==>
      h.jsonLd.value == JsonLd(h.title, h.description, h.schemaImages)
  {
    var title := ResolveTitle(input.title, input.site);
    var description := ResolveDescription(input.description, input.site);
    var social := SocialImageUrl(input.generatedSocialImage, input.image);
    var imageUrls := if input.hasBlock && input.hasRecordMap then GetImageUrls(input.imageUrlsLookup) else [];
    var schemaImages := SchemaImages(imageUrls, social);
    Head(
      title,
      description,
      Truthy(description),
      social,
      TwitterCardFor(social),
      if Truthy(social) then social else None,
      schemaImages,
      if input.isBlogPost then Some(JsonLd(title, description, schemaImages)) else None)
  }

  /** The structured data carries an `image` key iff the page is a blog post
      and either the page lists http URLs in `ImageURLs` or it has a social
      image; the listed URLs win over the social image. */
  lemma JsonLdImageIff(input: HeadInput)
    ensures var h := BuildHead(input);
      var listed := input.hasBlock && input.hasRecordMap && GetImageUrls(input.imageUrlsLookup) != [];
      && (h.jsonLd.Some? && h.jsonLd.value.image.Some? <==>
            input.isBlogPost && (listed || Truthy(SocialImageUrl(input.generatedSocialImage, input.image))))
      && (h.jsonLd.Some? && listed ==> h.jsonLd.value.image == Some(GetImageUrls(input.imageUrlsLookup)))
  {
  }

  /** `??` keeps an empty title where `||` would have used the site name. */
  lemma EmptyTitleKept(site: Site)
    requires site.name == Some("TempusMail")
    ensures ResolveTitle(Some(""), Some(site)) == Some("")
    ensures Or(Some(""), SiteName(Some(site))) == Some("TempusMail")
  {
  }
}

=== FILE: search_api.dfy ===
/**
 `handleSearchRequest`: picks the upstream strategy from the configured
 credentials, passes a successful result through, and turns every failure
 into one of two error kinds.
 */
module SearchApi {
  import opened Js
  import opened SearchTypes
  import NotionIntegration

  /** The two environment variables that choose the strategy. */
  datatype Env = Env(notionApiKey: Option<string>, notionTokenV2: Option<string>)

  datatype Strategy = Integration | CookieSession

  /** The official client is used iff an API key is set and no session token is. */
  function ChooseStrategy(env: Env): (s: Strategy)
    ensures s == Integration <==> Truthy(env.notionApiKey) && !Truthy(env.notionTokenV2)
  {
    if Truthy(env.notionApiKey) && !Truthy(env.notionTokenV2) then Integration else CookieSession
  }

  const AuthMessage := "Authentication failed. Please check your NOTION_TOKEN_V2 or NOTION_API_KEY environment variable."
  const DefaultSearchMessage := "Search failed"

  /** The only two errors `handleSearchRequest` throws. */
  datatype Failure = AuthenticationError(message: string) | SearchError(message: string) {
    /** The thrown error's `name`. */
    function Name(): string {
      if AuthenticationError? then "AuthenticationError" else "SearchError"
    }
  }

  /** The catch block: 401 and 403 become an authentication error with a fixed
      message; anything else, including an error without a response, becomes
      a search error carrying the original message or `'Search failed'`. */
  function Classify(e: UpstreamError): (f: Failure)
    ensures f.AuthenticationError? <==> e.status == Some(401) || e.status == Some(403)
    ensures f.AuthenticationError? ==> f.message == AuthMessage
    ensures f.message != ""
    ensures f.SearchError? && Truthy(e.message) ==> f.message == e.message.value
    ensures f.SearchError? && !Truthy(e.message) ==> f.message == DefaultSearchMessage
  {
    if e.status == Some(401) || e.status == Some(403) then AuthenticationError(AuthMessage)
    else SearchError(OrElse(e.message, DefaultSearchMessage))
  }

  /** What `handleSearchRequest` settles to. */
  datatype Outcome = Found(results: SearchResults) | Failed(failure: Failure)

  /** `handleSearchRequest(params)`, with the two upstream calls as parameters:
      `notionSearch` is the official client's `search`, `cookieSearch` the
      session-cookie `search` of the site's Notion module. */
  function HandleSearchRequest(
    params: SearchParams,
    env: Env,
    notionSearch: NotionIntegration.NotionQuery -> Upstream<seq<NotionIntegration.Item>>,
    cookieSearch: SearchParams -> Upstream<SearchResults>): (r: Outcome)
    ensures ChooseStrategy(env) == CookieSession ==>
      match cookieSearch(params)
      case Returned(v) => r == Found(v)
      case Threw(e) => r == Failed(Classify(e))
    ensures ChooseStrategy(env) == Integration ==>
      match notionSearch(NotionIntegration.ToNotionQuery(params))
      case Returned(items) => r == Found(NotionIntegration.Normalise(items))
      case Threw(e) => r == Failed(Classify(e))
  {
    var upstream :=
      if ChooseStrategy(env) == Integration
      then NotionIntegration.SearchWithIntegration(notionSearch(NotionIntegration.ToNotionQuery(params)))
      else cookieSearch(params);
    match upstream
    case Returned(v) => Found(v)
    case Threw(e) => Failed(Classify(e))
  }
}

=== FILE: search_client.dfy ===
/**
 The browser-side `searchNotion`: `searchNotionImpl` posts the parameters to
 the search endpoint and turns a non-2xx response into an error, and the
 memoising wrapper keys its cache on the query text alone, with entries that
 live for ten seconds.
 */
module SearchClient {
  import opened Js
  import opened SearchTypes
  import SearchApi
  import SearchEndpoint

  // ---------------------------------------------------------------------------
  // searchNotionImpl
  // ---------------------------------------------------------------------------

  datatype FetchRequest = FetchRequest(httpMethod: string, headers: seq<(string, string)>, body: SearchParams)

  /** `fetch(api.searchNotion, { method: 'POST', body: JSON.stringify(params),
      headers: { 'content-type': 'application/json' } })`; the serialised
      body is represented by the parameters it serialises. */
  function BuildRequest(params: SearchParams): (r: FetchRequest)
    ensures r.httpMethod == "POST" && r.body == params
    ensures r.headers == [("content-type", "application/json")]
  {
    FetchRequest("POST", [("content-type", "application/json")], params)
  }

  /** A fetch response; `body` is `None` when it is not valid JSON. */
  datatype FetchResponse = FetchResponse(status: int, statusText: string, body: Option<Payload>)

  /** `res.ok`. */
  predicate IsOk(status: int) {
    200 <= status <= 299
  }

  /** What the returned promise rejects with: the converted HTTP error (with
      the response attached), or the JSON parse error of a 2xx body. */
  datatype ClientError = HttpError(message: string, response: FetchResponse) | ParseError

  datatype ClientOutcome = Resolved(value: Payload) | Rejected(error: ClientError)

  /** `body.details || body.error || res.statusText`, where an unparseable
      body leaves the message at `statusText`. */
  function ErrorMessage(res: FetchResponse): (m: string)
    ensures res.body.None? ==> m == res.statusText
    ensures res.body.Some? && res.body.value.ErrorPayload? && Truthy(res.body.value.details) ==>
      m == res.body.value.details.value
    ensures res.body.Some? && res.body.value.ErrorPayload? && !Truthy(res.body.value.details) && Truthy(res.body.value.error) ==>
      m == res.body.value.error.value
    ensures res.body.Some? && res.body.value.ErrorPayload? && !Truthy(res.body.value.details) && !Truthy(res.body.value.error) ==>
      m == res.statusText
    ensures m == res.statusText || (res.body.Some? && res.body.value.ErrorPayload?)
  {
    match res.body
    case Some(ErrorPayload(error, details)) => OrElse(Or(details, error), res.statusText)
    case _ => res.statusText
  }

  /** `searchNotionImpl` once the fetch has settled on `res`. */
  function SearchNotionImpl(res: FetchResponse): (r: ClientOutcome)
    ensures IsOk(res.status) && res.body.Some? ==> r == Resolved(res.body.value)
    ensures IsOk(res.status) && res.body.None? ==> r == Rejected(ParseError)
    ensures !IsOk(res.status) ==> r == Rejected(HttpError(ErrorMessage(res), res))
  {
    if IsOk(res.status) then
      match res.body
      case Some(v) => Resolved(v)
      case None => Rejected(ParseError)
    else Rejected(HttpError(ErrorMessage(res), res))
  }

  // ---------------------------------------------------------------------------
  // The memoised searchNotion
  // ---------------------------------------------------------------------------

  const MaxAgeMs := 10_000

  /** `args[0]?.query`: the ancestor id plays no part in the key. */
  function CacheKey(params: SearchParams): string {
    params.query
  }

  datatype Entry = Entry(value: Payload, storedAt: int)

  type Cache = map<string, Entry>

  predicate Live(c: Cache, key: string, now: int) {
    key in c && now < c[key].storedAt + MaxAgeMs
  }

  /** One call: the outcome, the cache afterwards, and whether the network
      was used. */
  datatype Call = Call(outcome: ClientOutcome, cache: Cache, fetched: bool)

  /** `searchNotion(params)` at time `now`; `res` is what the network would
      answer if asked. A live entry is served without fetching; otherwise a
      resolved outcome is stored under the key with the current time and a
      rejection is not stored. */
  function SearchNotion(c: Cache, now: int, params: SearchParams, res: FetchResponse): (r: Call)
    ensures Live(c, CacheKey(params), now) ==> !r.fetched && r.cache == c && r.outcome == Resolved(c[CacheKey(params)].value)
    ensures !Live(c, CacheKey(params), now) ==> r.fetched && r.outcome == SearchNotionImpl(res)
    ensures r.fetched && r.outcome.Resolved? ==> r.cache == c[CacheKey(params) := Entry(r.outcome.value, now)]
    ensures r.outcome.Rejected? ==> r.cache == c
  {
    var key := CacheKey(params);
    if Live(c, key, now) then Call(Resolved(c[key].value), c, false)
    else
      var o := SearchNotionImpl(res);
      Call(o, if o.Resolved? then c[key := Entry(o.value, now)] else c, true)
  }

  /** Two calls whose parameters share the query (whatever their ancestor
      ids), the second within ten seconds of a first call that fetched
      successfully: the second is served from the cache with the first
      call's value and does not fetch. */
  lemma SameQueryWithinWindowShared(
    c: Cache, t1: int, t2: int, p1: SearchParams, p2: SearchParams,
    res1: FetchResponse, res2: FetchResponse)
    requires p1.query == p2.query
    requires t1 <= t2 < t1 + MaxAgeMs
    requires SearchNotion(c, t1, p1, res1).fetched && SearchNotion(c, t1, p1, res1).outcome.Resolved?
    ensures var first := SearchNotion(c, t1, p1, res1);
      var second := SearchNotion(first.cache, t2, p2, res2);
      !second.fetched && second.outcome == first.outcome
  {
  }

  /** Once ten seconds have passed since an entry was stored, the next call
      with that query fetches again. */
  lemma EntryExpires(c: Cache, t1: int, t2: int, p: SearchParams, res1: FetchResponse, res2: FetchResponse)
    requires t2 >= t1 + MaxAgeMs
    requires SearchNotion(c, t1, p, res1).fetched
    ensures SearchNotion(SearchNotion(c, t1, p, res1).cache, t2, p, res2).fetched
  {
  }

  // ---------------------------------------------------------------------------
  // The client against the endpoint
  // ---------------------------------------------------------------------------

  /** The response the endpoint's answer arrives as: its status, the status
      line's text, and its JSON body. */
  function Received(resp: SearchEndpoint.Response, statusText: string): FetchResponse {
    FetchResponse(resp.status, statusText, Some(resp.body))
  }

  /** The request the client builds passes the endpoint's method gate. */
  lemma ClientRequestIsAccepted(params: SearchParams, search: SearchParams -> SearchApi.Outcome)
    ensures var req := BuildRequest(params);
      SearchEndpoint.Handle(SearchEndpoint.Request(req.httpMethod, req.body), search).status != 405
  {
  }

  /** End to end: the client resolves with the result set unchanged on
      success, and on failure rejects with exactly the message of the error
      `handleSearchRequest` threw, for both kinds. */
  lemma ClientSeesServerOutcome(params: SearchParams, search: SearchParams -> SearchApi.Outcome, statusText: string)
    ensures var req := BuildRequest(params);
      var resp := SearchEndpoint.Handle(SearchEndpoint.Request(req.httpMethod, req.body), search);
      var out := SearchNotionImpl(Received(resp, statusText));
      match search(params)
      case Found(results) => out == Resolved(ResultsPayload(results))
      case Failed(f) => f.message != "" ==> out.Rejected? && out.error.HttpError? && out.error.message == f.message
  {
  }
}

=== FILE: search_endpoint.dfy ===
/**
 The `POST /api/search-notion` handler: method gating, then the mapping from
 the outcome of `handleSearchRequest` to a status, a JSON body and the
 `Cache-Control` header.
 */
module SearchEndpoint {
  import opened Js
  import opened SearchTypes
  import opened SearchApi

  datatype Request = Request(httpMethod: string, body: SearchParams)

  /** Status, JSON body and the `Cache-Control` header, if one was set. */
  datatype Response = Response(status: int, body: Payload, cacheControl: Option<string>)

  const CacheControl := "public, s-maxage=60, max-age=60, stale-while-revalidate=60"
  const MethodNotAllowed := Response(405, ErrorPayload(Some("method not allowed"), None), None)

  /** The default export; `search` stands for `handleSearchRequest`. */
  function Handle(req: Request, search: SearchParams -> Outcome): (resp: Response)
    ensures req.httpMethod != "POST" ==> resp == MethodNotAllowed
    ensures req.httpMethod == "POST" ==>
      match search(req.body)
      case Found(results) =>
        resp == Response(200, ResultsPayload(results), Some(CacheControl))
      case Failed(AuthenticationError(m)) =>
        resp == Response(500, ErrorPayload(Some(m), None), None)
      case Failed(SearchError(m)) =>
        resp == Response(500, ErrorPayload(Some("Search failed"), Some(OrElse(Some(m), "Unknown error"))), None)
  {
    if req.httpMethod != "POST" then MethodNotAllowed
    else
      match search(req.body)
      case Found(results) => Response(200, ResultsPayload(results), Some(CacheControl))
      case Failed(f) =>
        if f.Name() == "AuthenticationError" then Response(500, ErrorPayload(Some(f.message), None), None)
        else Response(500, ErrorPayload(Some("Search failed"), Some(OrElse(Some(f.message), "Unknown error"))), None)
  }

  /** A request with another method never reaches the search: the response
      is the same whatever the search would have done. */
  lemma NonPostIgnoresSearch(req: Request, s1: SearchParams -> Outcome, s2: SearchParams -> Outcome)
    requires req.httpMethod != "POST"
    ensures Handle(req, s1) == Handle(req, s2) == MethodNotAllowed
  {
  }

  /** The cache header is set exactly on success, and success is exactly 200. */
  lemma CacheHeaderOnlyOnSuccess(req: Request, search: SearchParams -> Outcome)
    ensures Handle(req, search).cacheControl.Some? <==> Handle(req, search).status == 200
    ensures Handle(req, search).status == 200 <==> req.httpMethod == "POST" && search(req.body).Found?
  {
  }

  /** Composed with `handleSearchRequest`, the `'Unknown error'` fallback is
      dead: a search error always carries a non-empty message, which becomes
      `details`. */
  lemma DetailsNeverUnknown(
    req: Request, env: Env,
    notionSearch: NotionIntegration.NotionQuery -> Upstream<seq<NotionIntegration.Item>>,
    cookieSearch: SearchParams -> Upstream<SearchResults>)
    requires req.httpMethod == "POST"
    ensures var search := (p: SearchParams) => HandleSearchRequest(p, env, notionSearch, cookieSearch);
      var resp := Handle(req, search);
      resp.body.ErrorPayload? && resp.body.details.Some? ==>
        resp.body.details.value != "" &&
        resp.body.details == Some(search(req.body).failure.message)
  {
  }
}

=== FILE: search_types.dfy ===
/**
 The shapes the search layers exchange: the request parameters, the
 normalised result set with its minimal record map, and the errors that the
 upstream clients throw.
 */
module SearchTypes {
  import opened Js

  /** The request body `{ query, ancestorId? }`. */
  datatype SearchParams = SearchParams(query: string, ancestorId: Option<string>)

  datatype Highlight = Highlight(pathText: string, text: string)

  datatype SearchResult = SearchResult(id: string, isNavigable: bool, score: real, highlight: Highlight)

  datatype Permission = Permission(role: string, kind: string)

  /** The value of one `recordMap.block` entry built for a search hit. */
  datatype PageBlock = PageBlock(
    id: string,
    version: int,
    kind: string,
    title: string,
    content: seq<string>,
    pageIcon: string,
    pageCover: string,
    pageCoverPosition: real,
    permissions: seq<Permission>,
    parentId: string,
    parentTable: string,
    alive: bool,
    spaceId: string)

  /** The record map of a result set; its `collection`, `collection_view`
      and `notion_user` tables are always empty and are not represented. */
  datatype RecordMap = RecordMap(block: map<string, PageBlock>)

  datatype SearchResults = SearchResults(recordMap: RecordMap, results: seq<SearchResult>, total: int)

  /** What an upstream client throws: `err.response?.status` and `err.message`. */
  datatype UpstreamError = UpstreamError(status: Option<int>, message: Option<string>)

  /** The settled outcome of an upstream call. */
  datatype Upstream<+T> = Returned(value: T) | Threw(error: UpstreamError)

  /** A JSON body on the wire between the search endpoint and its client:
      a result set, an `{ error, details }` object, or any other JSON. */
  datatype Payload =
    | ResultsPayload(results: SearchResults)
    | ErrorPayload(error: Option<string>, details: Option<string>)
    | OtherPayload
}
